=== FILE: README.md ===
# sakura byte framing, in Dafny

sakura extends R's serializer with hooks for values R cannot encode itself.
Two versions of the hook machinery live side by side:

- `src/core.cpp` is the current serializer. When the host meets a value of
  the registered class, the serialize hook asks the user's function for a
  raw payload. It writes a manufactured 40-byte string record whose string
  is the payload size in twenty zero-padded digits. It then writes the
  payload and returns the size string, which the host writes again as its
  own 40-byte record. The unserialize hook parses the size, reads the
  payload and skips the host's second record.
- `src/core.c` is the older serializer. It writes a 12-byte header: the
  marker 0x7, the low byte of the vec integer and a 64-bit offset. `nano_inHook` collects every
  value of the class into a list and hands the host a placeholder, the
  value's 1-based position in decimal. After the host stream, the list is
  written as a reference section. In the vec layout this is one blob. Otherwise
  it is a count followed by length-prefixed blobs. The offset field records
  where the section starts. `sakura_unserialize` dispatches on the first
  byte and restores the list before the host reads. `nano_outHook` then
  resolves each placeholder.
- Both files share the growable byte buffer (`nano_write_bytes`,
  `nano_read_bytes`).

The model has one module per concern:

- `ByteBuffer` is the buffer and its growth policy.
- `SizeCodec` is `format_size_string` and `parseUint64`.
- `Decimal` holds the decimal spellings and `atol`.
- `Bytes` holds the byte images.
- `Host` models the host serializer: a run of events, each either bytes of
  its own or a value offered to the hook.
- `ForeignRecord` covers the `src/core.cpp` hooks and walk.
- `RefHooks` covers `nano_inHook` and `nano_outHook`.
- `RefLayout` and `SectionReader` describe the older container's bytes.
- `RefContainer` covers `sakura_serialize` and `sakura_unserialize` of
  `src/core.c`.

The host serializer, R's object model and the user's hook functions stay
opaque:

- The user's hook functions are function-valued fields of a `Handler` or a
  `Hook`. A serialization function returns `None` where the guarded call
  fails or gives something other than a raw vector.
- The host's own output is a sequence of `Node` events.
- The flag word of the host's record of the returned string is a parameter,
  `hostFlags`.

Native-endian `memcpy` of `int` and 64-bit fields is modelled as
little-endian. No property here depends on the byte order, only on the
fixed widths. `R_XLEN_T_MAX` is 2^52, its value on 64-bit R.

Facts of the code that the model follows:

- There is no handler registry and no class-tag resolution. A single class
  name is checked with `inherits`.
- The manufactured record is followed directly by the payload, with
  nothing in between.
- The payload is written in one `OutBytes` call, whose length parameter is
  an `int`. `src/core.cpp:121` passes the `R_xlen_t` length to it, so a
  length above `INT_MAX` does not survive: on the usual platforms a payload
  of 2^32 + 5 bytes is written as 5 bytes behind the size field
  `00000000004294967301`. The model only admits payloads of at most
  `INT_MAX` bytes.
- The serialize hook returns the size string, which the host then writes
  as its own 40-byte record.
- The unserialize hook skips the 40 bytes after the payload: the host's
  record of that string.
- `parseUint64` checks only the length and then defers to `std::stoull`.
  After the length, a size field fails in two ways: with no numeral after
  the leading blanks and sign (`std::invalid_argument`, such as twenty
  spaces), or with digits above 2^64 - 1 (`std::out_of_range`).
- The read side has no path for an unknown class: the host reads what the
  hook returns.
- Where `src/core.c` has a defect (see "Findings"), `Serialize` writes the
  bytes the code writes. The round-trip lemmas take as hypotheses the
  conditions under which those bytes read back. A corrected definition
  with the intended property proved sits beside each defect.

## Model

| member | source | states |
|---|---|---|
| ByteBuffer.Init | src/core.cpp:213-215 | A fresh output buffer is empty, has capacity 4096 (`SAKURA_INIT_BUFSIZE`) and is valid, so growth can start from it. |
| ByteBuffer.Grow | src/core.cpp:48-50 | The settled capacity is the first value of the doubling-then-additive sequence that holds the requirement. It exceeds the old capacity, holds the requirement with less than one step (134217728) to spare, and stays below twice the requirement. |
| ByteBuffer.GrowLoop | src/core.cpp:48-50 | The `do … while` loop ends with exactly the capacity `Grow` describes, which holds the requirement and exceeds it by less than the threshold. |
| ByteBuffer.Write | src/core.cpp:38-57 | A write fails exactly when the bytes do not fit and the requirement exceeds `R_XLEN_T_MAX`. Otherwise the bytes are appended after the old content, which is kept. The capacity changes exactly when the bytes did not fit, and then becomes the capacity the growth loop settles on (`Grow`), less than twice the requirement. The cursor stays within the capacity. |
| ByteBuffer.WriteAll | src/core.cpp:38-57 | Consecutive writes leave the concatenation of their chunks after the old content. They fail only when the total crosses `R_XLEN_T_MAX`. |
| ByteBuffer.CopyOut | src/core.c:192 | The copy-out into a raw vector succeeds exactly when the buffer's bytes number at most `R_XLEN_T_MAX`, and then it yields those bytes. A buffer can hold more, since writes check the limit only when they grow. |
| ByteBuffer.Append | src/core.c:148-151 | The direct reallocation of the older section writer appends the bytes. The capacity moves to the given size exactly when they do not fit. |
| ByteBuffer.Read | src/core.cpp:59-66 | A read fails exactly when fewer than `n` bytes remain. Otherwise it returns the `n` bytes at the cursor and advances the cursor by `n`. |
| ByteBuffer.ReadAfterWrite | src/core.c:29-57 | Reading from where a write started returns the written bytes and ends where the write ended, whatever follows. |
| Decimal.Digits | src/core.c:71-72 | The `%ld` spelling of a count is a non-empty digit string that denotes the count and has no leading zero. |
| Decimal.ReadNumeral | src/core.c:94 | What `atol` and `std::stoull` read: leading blanks (the C-locale `isspace` set) are skipped, one `+` or `-` is taken, then the run of digits. On a plain digit string that is the string itself, unsigned. |
| Decimal.Atol | src/core.c:94 | `atol` gives the value of the numeral `ReadNumeral` finds at the head of the string: its digits' value, negated after a minus sign, and 0 when there are no digits. On a digit string it is the number the string denotes. |
| Decimal.BlanksSkipped | src/core.c:94 | A run of `isspace` characters in front of a string (space, tab, newline, vertical tab, form feed, carriage return) does not change the numeral read from it. |
| Decimal.AtolBlankAndSign | src/core.c:94 | After any run of `isspace` characters, `atol` of a digit string, or of one behind `+`, is the number the digits denote. Behind `-` it is that number negated. |
| SizeCodec.FormatSize | src/core.cpp:68-73 | The size field is exactly twenty ASCII digits and denotes the size. |
| SizeCodec.FormatSizeLayout | src/core.cpp:68-73 | The field is the shortest spelling of the size, right-aligned, with only zeros before it. |
| SizeCodec.Stoull | src/core.cpp:80 | `std::stoull` accepts exactly when the numeral has digits denoting at most 2^64-1. It reports a missing numeral as such, and digits beyond 64 bits as out of range. An unsigned numeral gives its value; a negated one gives the value that adds to it to a multiple of 2^64. On a plain digit string within 64 bits the result is its value. |
| SizeCodec.ParseUint64 | src/core.cpp:75-81 | A string whose length is not 20 is rejected, and only such a string gets that rejection. A twenty-character string is read as `std::stoull` reads it, so it is accepted exactly when its numeral has digits denoting at most 2^64-1. An accepted value is at most 2^64-1. On twenty digits denoting a 64-bit value, the result is that value. |
| SizeCodec.ParseRefusesWide | src/core.cpp:80 | A twenty-character field whose digits denote more than 64 bits is refused as out of range, whatever its sign. |
| SizeCodec.FormatThenParse | src/core.cpp:68-81 | Every 64-bit size survives the trip through its field. |
| SizeCodec.ParseThenFormat | src/core.cpp:68-81 | A twenty-digit field that parses is the field its value formats to. |
| SizeCodec.FormatInjective | src/core.cpp:68-73 | Distinct sizes give distinct fields. |
| Host.StringRecordLayout | src/core.cpp:110-117 | A one-string record holds, in order: the flag word 247, 0, the count 1, the element flag word, and the string length, as 4-byte fields. The characters follow and read back as the string. |
| ForeignRecord.WriteHeader | src/core.cpp:110-117 | The six `OutBytes` calls append the 40-byte manufactured record for the size. They fail only past `R_XLEN_T_MAX`. |
| ForeignRecord.SizeField | src/core.cpp:100-117 | The string carried by the manufactured record is the twenty-digit size field. |
| ForeignRecord.SerializeHook | src/core.cpp:84-129 | The hook returns nil and writes nothing when the value is not of the class or the guarded call gives no raw vector. Otherwise it appends the 40-byte record for the payload length, then the payload, and returns the size string. A failure means the output would cross `R_XLEN_T_MAX`. |
| ForeignRecord.UnserializeHook | src/core.cpp:131-156 | A size string that does not parse is an error carrying the parse error, and input that ends before the payload plus 40 bytes is truncated. Otherwise the hook passes exactly the `size` bytes at the cursor to the function and moves the cursor past them and 40 more. |
| ForeignRecord.ReadPayload | src/core.cpp:141-149 | Once the size is known, input that ends before the payload plus 40 bytes is truncated. Otherwise exactly the `size` bytes at the cursor go to the function, and the cursor moves past them and 40 more. |
| ForeignRecord.ReturnedStringRoundTrip | src/core.cpp:117-124 | Wherever the hook wrote its record and payload, the string at the record's string position is the size string the hook returned, whatever follows. |
| ForeignRecord.RecordRoundTrip | src/core.cpp:138-153 | Handed the size string of a written payload and reading from just past the manufactured record, the unserialize hook decodes exactly that payload. It stops at the end of the host's 40-byte record, whatever bytes follow. |
| ForeignRecord.ValueRoundTrip | src/core.cpp:84-156 | A value of the class whose function pair inverts on its payload is restored. The string read back from the record leads the unserialize hook to that value, and the cursor ends just past the host's record. |
| ForeignRecord.WriteCandidate | src/core.cpp:92-124 | For a candidate value the output gains either the host's own bytes, when the hook declines, or the hook's record and payload followed by the host's record of the returned string. |
| ForeignRecord.SerializeNodes | src/core.cpp:212-228 | The host walk through `nano_write_bytes` leaves the concatenation of what every event puts on the wire. It fails only past `R_XLEN_T_MAX`. |
| ForeignRecord.Serialize | src/core.cpp:253-265 | The result is exactly the bytes of the walk. It is produced exactly when they fit in a raw vector, and refused by the copy-out otherwise. |
| RefHooks.PlaceholderFits | src/core.c:71-72 | The placeholder of any list length R allows fits the 21-byte print buffer. |
| RefHooks.InHook | src/core.c:59-90 | A value not of the class gives nil and leaves the list as it was. Any other value is appended, with the returned name appended to the names, and earlier entries and names are untouched. The name fits the print buffer. In a well-named list every name stays its own 1-based position. |
| RefHooks.PlaceholderValue | src/core.c:71-72 | The placeholder handed out is a digit string that denotes the new value's 1-based position. |
| RefHooks.OutHook | src/core.c:92-97 | The placeholder resolves exactly when `atol` of it is a position in the list, and it resolves to the element at that position. |
| RefHooks.PlaceholderResolves | src/core.c:59-97 | The placeholder `nano_inHook` hands out resolves, through `nano_outHook`, to the same value in any list that starts with the session it left. |
| RefHooks.NamesResolve | src/core.c:75-85 | In a well-named session every name resolves to its own element, in any list extending the session. |
| RefHooks.NamesDistinct | src/core.c:71-82 | Distinct positions get distinct placeholders. |
| RefLayout.FlagByteAsWritten | src/core.c:114 | The flag byte as written keeps only the low eight bits of the vec integer. |
| RefLayout.FlagByteLosesVec | src/core.c:112-114 | The nonzero vec integers 256 and `NA_integer_` give a flag byte of zero. |
| RefLayout.FlagByte | src/core.c:114 | The corrected flag byte, which the writer as written does not use: nonzero exactly when the vec integer is. `RefContainer.CorrectedFlagReadsBack` shows that a container carrying it reads back. |
| RefLayout.HeaderLayout | src/core.c:104-116 | A fresh header has the marker 0x7 at byte 0, the vec integer's low eight bits at byte 1, zeros at bytes 2 and 3, and an offset of zero in bytes 4 to 11. |
| RefLayout.PatchOffset | src/core.c:137-139 | Patching keeps bytes 0-3 and everything from byte 12 on. Bytes 4 to 11 then hold the cursor. |
| RefLayout.Unpatched | src/core.c:104-116 | A header followed by a stream, unpatched, is a container of that stream with offset zero. |
| RefLayout.Patched | src/core.c:137-139 | After the patch and an appended section, the offset field holds where the stream ends, and the section starts there. |
| RefLayout.NodePiece | src/core.c:59-90 | An event yields a placeholder exactly when it contributes a collected value, and the placeholder is numbered one past the values collected before it. |
| RefLayout.Pieces | src/core.c:131-135 | One piece per event, with placeholder numbers after `k` and at most `k` plus the number of events. |
| RefLayout.PieceNumbered | src/core.c:71-81 | The event at index `i` gets the piece for an event met after the values collected before it. |
| RefLayout.PlaceholderPiece | src/core.c:71-81 | A value of the class at index `i` is written as the placeholder one past the values collected before it. |
| RefLayout.CollectedAt | src/core.c:75-81 | A value of the class at index `i` sits in the collected list at the count of values collected before it. |
| RefLayout.CollectedOfClass | src/core.c:61-62 | Only values of the class are collected. |
| RefLayout.StreamNonEmpty | src/core.c:135-137 | A stream in which something was collected is longer than a record prefix, so the container is longer than 12 bytes and passes the reader's size check at `src/core.c:208`. |
| RefLayout.LengthField | src/core.c:166-178 | A count or length is an 8-byte field that denotes it. |
| RefLayout.LengthFieldUnique | src/core.c:166-178 | The field written for a number is the only eight bytes that denote it. |
| RefLayout.EntriesLaid | src/core.c:169-182 | Entries written one after another sit with each blob behind its length, and they end where their bytes end. |
| SectionReader.ReadLength | src/core.c:227-235 | A count or length read takes eight bytes and advances by eight. It denotes what those bytes hold and is refused when they run short. |
| SectionReader.ReadEntry | src/core.c:234-238 | An entry read takes an 8-byte length and then that many bytes, which it returns, and ends past them within the data. Data that ends before the length is short. |
| SectionReader.ReadEntries | src/core.c:233-243 | `n` entries are read in turn. The cursor advances at least eight bytes per entry and stays within the data. With no room for a first length, reading any entries is short. |
| SectionReader.ReadRefs | src/core.c:227-243 | A section shorter than its eight-byte count field is short, and a count that is negative as an `R_xlen_t` is refused. A section that reads has as many elements as its count says, and is at least eight bytes per element longer than the count field. |
| SectionReader.EntryRead | src/core.c:234-238 | An entry in place at the cursor is read back, and the cursor ends just past it. |
| SectionReader.LaidRead | src/core.c:233-243 | Entries in place are read back in order, ending where they end. |
| RefContainer.WriteStream | src/core.c:118-135 | The host's writes append its stream, with a placeholder record for every collected value. They fail only past `R_XLEN_T_MAX`. |
| RefContainer.Collect | src/core.c:59-90 | Over a walk, the session grows by exactly the collected values in order, and stays well named. |
| RefContainer.PutEntries | src/core.c:169-182 | The entry loop appends each blob behind its length and keeps the cursor within the storage. |
| RefContainer.PutSection | src/core.c:159-184 | The count and then the entries are appended. |
| RefContainer.PutBlob | src/core.c:142-154 | The vec layout appends the whole list's blob when its serialization succeeds, and nothing otherwise. |
| RefContainer.BlobsAsWritten | src/core.c:169-182 | The writer as it stands emits no more blobs than elements. |
| RefContainer.EntriesRoundTrip | src/core.c:227-243 | Entries are read back as written, whatever surrounds them. |
| RefContainer.SectionRoundTrip | src/core.c:226-244 | A section is read back as the decoding of every blob, whatever follows. |
| RefContainer.RefSectionRoundTrip | src/core.c:157-184 | The corrected section reads back one element per collected value: the decoding of its serialization, or of an empty blob where that failed. |
| RefContainer.AsWrittenWhenAllSucceed | src/core.c:169-182 | When every element serializes, the writer as it stands and the corrected one agree. |
| RefContainer.SkippedItemBreaksSection | src/core.c:169-182 | As written, a section whose one element fails to serialize cannot be read back: the reader runs short. |
| RefContainer.Serialize | src/core.c:101-198 | Without a hook the output is the host's bytes alone and the list is untouched, and the call succeeds exactly when those bytes fit in a raw vector. With a hook the list is nil afterwards. A successful output is never longer than `R_XLEN_T_MAX`. The bytes with a hook are stated by `ContainerLayout`. |
| RefContainer.Finish | src/core.c:137-188 | Whatever the storage grows to, the result is the patched buffer followed by the section as the code writes it: the whole list's blob in the vec layout, or otherwise the count of all collected values with entries only for those that serialized. |
| RefContainer.ContainerLayout | src/core.c:101-198 | With a hook the call succeeds exactly when the whole output fits in a raw vector: the header and host stream, plus the section when something was collected. The section's own appends check no limit, so a long section is refused only by the copy-out at src/core.c:192. The output is the header, with the vec integer's low byte at byte 1, followed by the host stream from byte 12. If nothing was collected the offset is zero and nothing follows. Otherwise the offset is where the stream ends, and the section as the code writes it starts there. |
| RefContainer.UnpatchedOut | src/core.c:187-192 | When nothing was collected, the copy-out of header and stream succeeds exactly when they fit, and gives a container with offset zero and nothing after the stream. |
| RefContainer.FinishedOut | src/core.c:136-192 | When something was collected, the copy-out of the patched buffer and section succeeds exactly when stream and section together fit, and gives a container whose offset is the stream end, with the section there. |
| RefContainer.Unserialize | src/core.c:200-253 | Data of at most 12 bytes, or with an unknown first byte, is refused. `A`, `B` and `X` start the host at byte 0 with no list. 0x7 starts it at byte 12, and a list is restored exactly when the offset is nonzero. A zero offset gives no list; a nonzero one needs a hook and an offset within the data. Then a nonzero byte 1 hands everything from the offset to the list function, and a zero byte 1 reads a count section there, refusing the data when that section cannot be read. |
| RefContainer.ReadContainer | src/core.c:216-248 | A container whose section sits at the recorded offset, whose byte 1 is zero exactly when the vec integer is, and whose count section has an entry for every element, restores that section's list by the writer's layout. The host then starts at byte 12. |
| RefContainer.LostFlagMisreadsBlob | src/core.c:216-245 | When the vec integer is nonzero but its low byte is zero, the reader parses the whole list's blob as a count section. A blob shorter than eight bytes, such as the empty one left by a failed serialization, is refused. |
| RefContainer.CorrectedFlagReadsBack | src/core.c:112-114 | With byte 1 written as the corrected flag instead of the truncated integer, the container reads back by the writer's layout for every vec integer, including 256 and `NA_integer_`. No condition is placed on the low byte. |
| RefContainer.SerializeThenUnserialize | src/core.c:101-248 | Unserializing what the hook serializer wrote, after it met a value of the class, restores the list by the writer's layout, and the host then starts at byte 12. This holds when the vec integer's low byte is zero exactly when the integer is and, outside the vec layout, every element of the collected list serializes. |
| RefContainer.WrittenContainer | src/core.c:101-198 | Once the walk has met a value of the class, a successful call's output is a container whose stream is non-empty and whose section, as the code writes it, starts where the stream ends. |
| RefContainer.CollectSerializes | src/core.c:169-172 | When every value of the class serializes, every element of a list collected from such values serializes, which is the per-element condition of the round trip. |
| RefContainer.RestoredItems | src/core.c:220-243 | With a hook whose functions invert each other on the session, the restored list is exactly the collected one. |
| RefContainer.InvertsOnSession | src/core.c:142-182 | A hook that inverts itself on every value of the class, or, in the vec layout, on every list it serializes, inverts itself on any session of such values that it serializes as a whole. |
| RefContainer.PlaceholderResolvesInList | src/core.c:92-97 | Starting from the nil list, the name given to the value at index `i` picks that value out of the restored list, when the hook's functions undo each other on the collected list: element by element, or as a whole in the vec layout. |
| RefContainer.PlaceholderRoundTrip | src/core.c:59-253 | End to end, from the nil list, in either layout: the value at index `i` is written as the placeholder one past the values collected before it. When the call succeeds, the container unserializes with a list, and `nano_outHook` resolves that placeholder to the value itself. This holds when the hook's functions undo each other on the collected list and the vec integer's low byte is zero exactly when it is. |
| RefContainer.ContainerResolves | src/core.c:59-248 | From the nil list, in either layout, when the hook's functions undo each other on the collected list and the vec integer's low byte is zero exactly when it is: when the call succeeds, its output unserializes with a list in which the name of the value at index `i` resolves to that value. |

## Left out

- The host serializer (`R_Serialize`, `R_Unserialize`) is not modelled. It
  is reduced to a run of `Node` events on the write side and to a reader
  handed the string of each record on the read side.
- The XDR/binary format choice is not modelled. Native-endian fields are
  fixed to little-endian.
- R's object model, `PROTECT`, `Rf_eval` and `R_ToplevelExec` are not
  modelled. The user's functions are opaque and their failure is `None`.
  `inherits` is an opaque predicate.
- The bundle and stream setup of `src/core.cpp` (`sakura_serialize_init`,
  `sakura_unserialize_init`, the `XPtr` bundles) is not modelled. Neither
  is its `sakura_unserialize`, which only starts the host at byte 0 with
  `nano_read_bytes`.
- Storage release and `R_Realloc` failure are not modelled. An R error is
  modelled as a `Failure` result, with no memory behind it.
- The zero-filled `R_Calloc` buffer of `src/core.c` is not modelled.
  `Header` spells out the zeros it leaves in bytes 2 to 11.
- The `SET_TAG(hook, R_NilValue)` reset after unserialization is not
  modelled. `Unserialize` returns the restored list instead of storing it
  in the hook, so no state outlives a call.
- ByteBuffer.Write: the `int` length of `OutBytes` is required to be at
  most `INT_MAX` rather than modelled as a C conversion.
- ForeignRecord.SerializeHook: payloads are required to be at most
  `INT_MAX` bytes (`HandlerFits`). `src/core.cpp:121` passes a longer
  length to the `int` parameter of `OutBytes`, which truncates it, so the
  bytes written no longer match the size field. The model does not
  describe those bytes.
- ForeignRecord.UnserializeHook: a parsed size above `INT_MAX` is excluded
  by its precondition. The conversion to the `int` length of `InBytes` at
  `src/core.cpp:143` is not modelled.
- ForeignRecord.UnserializeHook: an R error raised by the user's
  unserialize function (`src/core.cpp:153`) aborts the call. The model's
  decoders are total functions and never fail. The same holds for
  RefContainer.Unserialize and the calls at `src/core.c:224` and
  `src/core.c:240`.
- SizeCodec.ParseUint64: the C++ exception types are reduced to the three
  `ParseError` cases.
- Decimal.Atol: a numeral beyond the range of `long` is undefined in C.
  The model gives the number its digits denote.
- RefHooks.OutHook: an index outside the list is `None`. There
  `src/core.c:92` reads out of bounds: `VECTOR_ELT` checks the type of
  the list, not the index. This includes the negative index a minus sign
  gives.
- RefContainer.Unserialize: `src/core.c` reads the offset, counts and
  lengths with unchecked `memcpy`. The model refuses instead, in four
  cases:
  - an offset beyond the end;
  - a section that runs short;
  - a negative `R_xlen_t` count or length;
  - an offset with no hook to decode it, which the source would evaluate
    as a call to nil.
- RefContainer.PutEntries: the section writer's reallocations have no
  `R_XLEN_T_MAX` check in the source, and the model has none either. The
  section is required to consist of raw vectors (`HookFits`).
- RefContainer.PlaceholderRoundTrip: stated for a call that starts from
  the nil list. Every call that finishes leaves `TAG(hook)` nil, but one
  that stops with an R error midway would leave its partial list behind.
- RefContainer.SerializeThenUnserialize: stated only when the vec
  integer's low byte is zero exactly when the integer is, and, outside the
  vec layout, when every collected value serializes. Without these
  conditions the code as written does not read its own output back (see
  "Findings").
- RefContainer.Serialize: its own contract says nothing about the bytes
  with a hook. Those are stated by the lemma `RefContainer.ContainerLayout`
  about the same call.

## Findings

| source | as written | input that shows it | evidently intended | confidence | as-written member | corrected member |
|---|---|---|---|---|---|---|
| src/core.c:169-182 | The non-vec writer writes the count of all collected values, but skips the entry of any element whose serialization fails or is not a raw vector. | A session of one value whose serialization function fails: the section is a count of 1 and no entry, and the reader runs past the end. | Every counted element has an entry, for example an empty blob for one that failed, so the section reads back. | not executed; high that the layout breaks, medium on the intended fix | RefContainer.SkippedItemBreaksSection | RefContainer.RefSectionRoundTrip |
| src/core.c:112-114 | The vec flag is stored as `(uint8_t) vec`, its low eight bits. The writer picks the layout by the full integer and the reader by the byte. | vec = 256, or `NA_integer_`: the writer appends one blob, but byte 1 is 0 and the reader parses it as a count-prefixed section. | The flag byte is nonzero exactly when the vec integer is. | not executed; low, since vec is normally 0 or 1 | RefContainer.LostFlagMisreadsBlob | RefContainer.CorrectedFlagReadsBack |

=== FILE: buffer.dfy ===
/**
 * The growable byte buffer behind both serializers (`nano_buf`): a write
 * side that appends at a cursor and grows its capacity on demand, and a read
 * side that hands out consecutive slices of a fixed byte string.
 *
 * The write-side buffer is represented by the bytes written so far
 * (`content`, whose length is the cursor `cur`) and the allocated capacity
 * (`cap`, the field `len` of the source).
 */
module ByteBuffer {
  import opened Wrappers
  import opened Bytes

  /** `SAKURA_INIT_BUFSIZE`: the capacity a fresh output buffer starts with. */
  const InitBufSize: nat := 4096
  /** `SAKURA_SERIAL_THR`: above this capacity, growth is additive rather than doubling. */
  const SerialThr: nat := 134217728
  /** `R_XLEN_T_MAX` of a 64-bit R: the longest raw vector, 2^52. */
  const MaxLength: nat := 4503599627370496
  /** `INT_MAX`: the largest length an `OutBytes`/`InBytes` call can pass. */
  const IntMax: nat := 2147483647
  /** No capacity ever exceeds this: growth stops within one step of `MaxLength`. */
  const CapLimit: nat := MaxLength + SerialThr

  datatype Buffer = Buffer(content: seq<byte>, cap: nat)

  /** The cursor stays within a positive capacity that growth can reach. */
  predicate Valid(b: Buffer) {
    0 < b.cap <= CapLimit && |b.content| <= b.cap
  }

  /** The buffer `sakura_serialize` starts from: empty, with the initial capacity. */
  function Init(): (b: Buffer)
    ensures Valid(b) && b.content == [] && b.cap == InitBufSize
  {
    Buffer([], InitBufSize)
  }

  /** One growth step: double while at or below the threshold, then add the threshold. */
  function Step(cap: nat): nat {
    if cap > SerialThr then SerialThr else cap
  }

  /**
   * The capacity the growth loop settles on for a requirement `req` that does
   * not fit in `cap`: the first value of `cap`, `cap + Step(cap)`, ... that
   * holds `req`. It holds `req` with less than one step to spare, so it never
   * more than doubles the requirement nor exceeds it by the threshold.
   */
  function Grow(cap: nat, req: nat): (r: nat)
    requires 0 < cap < req
    ensures cap < r
    ensures req <= r < req + SerialThr
    ensures r < 2 * req
    decreases req - cap
  {
    var next := cap + Step(cap);
    if next >= req then next else Grow(next, req)
  }

  /** The `do { ... } while` growth loop of `nano_write_bytes`. */
  method GrowLoop(cap0: nat, req: nat) returns (cap: nat)
    requires 0 < cap0 < req
    ensures cap == Grow(cap0, req)
    ensures req <= cap < req + SerialThr
  {
    cap := cap0;
    cap := cap + Step(cap);
    while cap < req
      invariant cap0 < cap
      invariant cap < req ==> Grow(cap0, req) == Grow(cap, req)
      invariant req <= cap ==> Grow(cap0, req) == cap
      decreases req - cap
    {
      cap := cap + Step(cap);
    }
  }

  /** `nano_write_bytes` fails, after releasing its storage, only past `R_XLEN_T_MAX`. */
  datatype WriteError = CapacityExceeded

  /**
   * `nano_write_bytes`: append `src` at the cursor. When the bytes do not fit,
   * the capacity grows by `Grow`, unless the requirement exceeds
   * `R_XLEN_T_MAX`, which is the one failure.
   */
  function Write(b: Buffer, src: seq<byte>): (r: Result<Buffer, WriteError>)
    requires Valid(b)
    requires |src| <= IntMax
    ensures r.Failure? <==> b.cap < |b.content| + |src| && MaxLength < |b.content| + |src|
    ensures r.Success? ==> Valid(r.value)
    ensures r.Success? ==> r.value.content == b.content + src
    ensures r.Success? ==> (r.value.cap == b.cap <==> |b.content| + |src| <= b.cap)
    ensures r.Success? && b.cap < |b.content| + |src| ==> r.value.cap == Grow(b.cap, |b.content| + |src|)
  {
    var req := |b.content| + |src|;
    if req > b.cap then
      if req > MaxLength then Failure(CapacityExceeded)
      else Success(Buffer(b.content + src, Grow(b.cap, req)))
    else
      Success(Buffer(b.content + src, b.cap))
  }

  /** Every chunk fits in the `int` length of one `OutBytes` call. */
  predicate ChunksFit(chunks: seq<seq<byte>>) {
    forall i :: 0 <= i < |chunks| ==> |chunks[i]| <= IntMax
  }

  function Concat(chunks: seq<seq<byte>>): seq<byte> {
    if chunks == [] then [] else chunks[0] + Concat(chunks[1..])
  }

  /**
   * Consecutive `OutBytes` calls, one per chunk. Whatever capacities the
   * individual calls pass through, the chunks end up concatenated, and the
   * calls fail only when the total crosses `R_XLEN_T_MAX`.
   */
  function WriteAll(b: Buffer, chunks: seq<seq<byte>>): (r: Result<Buffer, WriteError>)
    requires Valid(b)
    requires ChunksFit(chunks)
    ensures r.Success? ==> Valid(r.value) && r.value.content == b.content + Concat(chunks)
    ensures r.Failure? ==> MaxLength < |b.content| + |Concat(chunks)|
    decreases |chunks|
  {
    if chunks == [] then Success(b)
    else
      var b' :- Write(b, chunks[0]);
      var r := WriteAll(b', chunks[1..]);
      assert r.Success? ==> r.value.content == b.content + Concat(chunks);
      r
  }

  /**
   * The copy-out into a fresh raw vector of length `cur`. `Rf_allocVector`
   * refuses a length above `R_XLEN_T_MAX`, which a buffer can hold: `OutBytes`
   * checks the limit only when it grows, and growth may overshoot it.
   */
  function CopyOut(bytes: seq<byte>): (r: Result<seq<byte>, WriteError>)
    ensures r.Success? <==> |bytes| <= MaxLength
    ensures r.Success? ==> r.value == bytes
  {
    if |bytes| > MaxLength then Failure(CapacityExceeded) else Success(bytes)
  }

  /**
   * The direct `R_Realloc` growth the reference-section writer of the older
   * serializer uses: when `bytes` do not fit, the capacity becomes `grown`.
   * There is no `R_XLEN_T_MAX` check on this path.
   */
  function Append(b: Buffer, bytes: seq<byte>, grown: nat): (r: Buffer)
    requires |b.content| <= b.cap
    requires |b.content| + |bytes| <= grown
    ensures r.content == b.content + bytes
    ensures |r.content| <= r.cap
    ensures r.cap == if |b.content| + |bytes| <= b.cap then b.cap else grown
  {
    var cap := if |b.content| + |bytes| > b.cap then grown else b.cap;
    Buffer(b.content + bytes, cap)
  }

  /** The read side: a fixed byte string and a read position. */
  datatype Reader = Reader(data: seq<byte>, cur: nat)

  /** `nano_read_bytes` raises "unserialization error" on an underrun. */
  datatype ReadError = Underrun

  /**
   * `nano_read_bytes`: the next `n` bytes, failing when fewer than `n` remain.
   */
  function Read(rd: Reader, n: nat): (r: Result<(seq<byte>, Reader), ReadError>)
    ensures r.Failure? <==> |rd.data| < rd.cur + n
    ensures r.Success? ==> |r.value.0| == n
    ensures r.Success? ==> r.value.0 == rd.data[rd.cur..rd.cur + n]
    ensures r.Success? ==> r.value.1 == Reader(rd.data, rd.cur + n)
  {
    if rd.cur + n > |rd.data| then Failure(Underrun)
    else Success((rd.data[rd.cur..rd.cur + n], Reader(rd.data, rd.cur + n)))
  }

  /**
   * Reading from where a write started gives back the written bytes and
   * leaves the read cursor where the write cursor ended, whatever follows.
   */
  lemma ReadAfterWrite(b: Buffer, src: seq<byte>, rest: seq<byte>)
    requires Valid(b)
    requires |src| <= IntMax
    requires Write(b, src).Success?
    ensures var data := Write(b, src).value.content + rest;
            Read(Reader(data, |b.content|), |src|)
              == Success((src, Reader(data, |Write(b, src).value.content|)))
  {
    var w := Write(b, src).value;
    var data := w.content + rest;
    assert data[|b.content|..|b.content| + |src|] == w.content[|b.content|..];
  }
}

=== FILE: bytes.dfy ===
/**
 * Bytes as they appear on the wire, the fixed-width integer images that the
 * source copies with `memcpy`/`OutBytes`, and strings whose characters are
 * single bytes.
 *
 * The source writes `int` and 64-bit fields in the host's native byte order
 * (R's binary format). This model fixes that order to little-endian; nothing
 * in the framing depends on the choice, only on the width being fixed.
 */
module Bytes {

  newtype byte = x: int | 0 <= x < 256

  function Pow256(w: nat): (r: nat)
    ensures r >= 1
  {
    if w == 0 then 1 else 256 * Pow256(w - 1)
  }

  /** The number a little-endian byte image denotes. */
  function FromLE(bs: seq<byte>): (v: nat)
    ensures v < Pow256(|bs|)
  {
    if bs == [] then 0 else bs[0] as nat + 256 * FromLE(bs[1..])
  }

  /** The `w`-byte little-endian image of `v`; it denotes `v` again. */
  function LE(v: nat, w: nat): (bs: seq<byte>)
    requires v < Pow256(w)
    ensures |bs| == w
    ensures FromLE(bs) == v
  {
    if w == 0 then [] else [(v % 256) as byte] + LE(v / 256, w - 1)
  }

  /** Two images of the same width that denote the same number are equal. */
  lemma {:induction false} FromLEInjective(a: seq<byte>, b: seq<byte>)
    requires |a| == |b|
    requires FromLE(a) == FromLE(b)
    ensures a == b
  {
    if a != [] {
      assert a[0] as nat == FromLE(a) % 256;
      assert b[0] as nat == FromLE(b) % 256;
      FromLEInjective(a[1..], b[1..]);
      assert a == [a[0]] + a[1..];
      assert b == [b[0]] + b[1..];
    }
  }

  /** Width-4 images hold a C `int`, width-8 images a `uint64_t` or `R_xlen_t`. */
  lemma Pow256Widths()
    ensures Pow256(4) == 0x1_0000_0000
    ensures Pow256(8) == 0x1_0000_0000_0000_0000
  {
  }

  /** A string all of whose characters fit in one byte. */
  predicate IsByteString(s: string) {
    forall i :: 0 <= i < |s| ==> s[i] as int < 256
  }

  /** The bytes of a one-byte-per-character string, as `&str[0]` exposes them. */
  function StringBytes(s: string): (bs: seq<byte>)
    requires IsByteString(s)
    ensures |bs| == |s|
    ensures forall i :: 0 <= i < |s| ==> bs[i] as int == s[i] as int
  {
    seq(|s|, i requires 0 <= i < |s| => s[i] as int as byte)
  }

  /** The string a run of bytes spells, as `Rf_mkChar` makes it. */
  function BytesString(bs: seq<byte>): (s: string)
    ensures |s| == |bs| && IsByteString(s)
    ensures forall i :: 0 <= i < |bs| ==> s[i] as int == bs[i] as int
  {
    seq(|bs|, i requires 0 <= i < |bs| => bs[i] as int as char)
  }

  /** Reading back the bytes of a byte string gives the string. */
  lemma StringBytesRoundTrip(s: string)
    requires IsByteString(s)
    ensures BytesString(StringBytes(s)) == s
  {
    var t := BytesString(StringBytes(s));
    assert forall i :: 0 <= i < |s| ==> t[i] as int == s[i] as int;
  }
}

=== FILE: decimal.dfy ===
/**
 * Decimal spellings of natural numbers: the `%ld` spelling `snprintf`
 * produces, the zero-padded spelling of `std::setw`/`std::setfill('0')`, and
 * the numeral reading that `atol` and `std::stoull` perform.
 */
module Decimal {

  predicate IsDigit(c: char) {
    '0' <= c <= '9'
  }

  predicate AllDigits(s: string) {
    forall i :: 0 <= i < |s| ==> IsDigit(s[i])
  }

  function DigitValue(c: char): (d: nat)
    requires IsDigit(c)
    ensures d < 10
  {
    c as int - '0' as int
  }

  function DigitChar(d: nat): (c: char)
    requires d < 10
    ensures IsDigit(c) && DigitValue(c) == d
  {
    (d + '0' as int) as char
  }

  function Pow10(k: nat): (r: nat)
    ensures r >= 1
  {
    if k == 0 then 1 else 10 * Pow10(k - 1)
  }

  lemma {:induction false} Pow10Add(a: nat, b: nat)
    ensures Pow10(a + b) == Pow10(a) * Pow10(b)
  {
    if b > 0 {
      Pow10Add(a, b - 1);
      assert Pow10(a + b) == 10 * Pow10(a + b - 1);
      assert Pow10(a) * Pow10(b) == Pow10(a) * (10 * Pow10(b - 1));
    }
  }

  /** The widths the framing relies on: 16 digits hold 2^52, 20 digits hold 2^64 - 1. */
  lemma Pow10Widths()
    ensures Pow10(16) == 10_000_000_000_000_000
    ensures Pow10(20) == 100_000_000_000_000_000_000
  {
    assert Pow10(2) == 100;
    assert Pow10(4) == 10_000 by {
      Pow10Add(2, 2);
    }
    assert Pow10(8) == 100_000_000 by {
      Pow10Add(4, 4);
    }
    Pow10Add(8, 8);
    Pow10Add(16, 4);
  }

  /** The number a digit string denotes, most significant digit first. */
  function Value(s: string): (v: nat)
    requires AllDigits(s)
    ensures v < Pow10(|s|)
  {
    if s == [] then 0 else Value(s[..|s| - 1]) * 10 + DigitValue(s[|s| - 1])
  }

  /** The shortest decimal spelling of `n`: it denotes `n` and has no leading zero. */
  function Digits(n: nat): (s: string)
    ensures 1 <= |s| && AllDigits(s)
    ensures Value(s) == n
    ensures s[0] == '0' ==> s == "0"
  {
    if n < 10 then [DigitChar(n)]
    else
      var s := Digits(n / 10) + [DigitChar(n % 10)];
      assert s[..|s| - 1] == Digits(n / 10);
      s
  }

  /** A run of `k` zero digits. */
  function Zeros(k: nat): (s: string)
    ensures |s| == k && AllDigits(s)
    ensures forall i :: 0 <= i < k ==> s[i] == '0'
  {
    seq(k, _ => '0')
  }

  /** The digits at the start of `s`, up to the first character that is not one. */
  function DigitPrefix(s: string): (p: string)
    ensures AllDigits(p) && p <= s
    ensures |p| < |s| ==> !IsDigit(s[|p|])
    ensures AllDigits(s) ==> p == s
  {
    if s == [] || !IsDigit(s[0]) then []
    else [s[0]] + DigitPrefix(s[1..])
  }

  /** The characters `isspace` accepts in the C locale: space, tab, newline, vertical tab, form feed, carriage return. */
  predicate IsBlank(c: char) {
    c == ' ' || 9 <= c as int <= 13
  }

  /** A run of such characters. */
  predicate AllBlank(b: string) {
    forall i :: 0 <= i < |b| ==> IsBlank(b[i])
  }

  /** What the C `strto*` family reads from a string: a sign and the run of digits after it. */
  datatype Numeral = Numeral(negative: bool, digits: string)

  /**
   * The numeral at the head of `s`: leading blanks are skipped, one `+` or
   * `-` is taken, then the digits up to the first non-digit.
   */
  function ReadNumeral(s: string): (n: Numeral)
    ensures AllDigits(n.digits)
    ensures AllDigits(s) ==> n == Numeral(false, s)
  {
    if s == [] then Numeral(false, [])
    else if IsBlank(s[0]) then ReadNumeral(s[1..])
    else if s[0] == '+' || s[0] == '-' then Numeral(s[0] == '-', DigitPrefix(s[1..]))
    else Numeral(false, DigitPrefix(s))
  }

  /** What `atol` returns: the signed value of the numeral at the head of `s`, 0 when there is none. */
  function Atol(s: string): (v: int)
    ensures AllDigits(s) ==> v == Value(s)
    ensures ReadNumeral(s).digits == [] ==> v == 0
    ensures !ReadNumeral(s).negative ==> v == Value(ReadNumeral(s).digits)
    ensures ReadNumeral(s).negative ==> v == -(Value(ReadNumeral(s).digits) as int)
    ensures v < 0 ==> ReadNumeral(s).negative
  {
    var n := ReadNumeral(s);
    var m: int := Value(n.digits);
    if n.negative then -m else m
  }

  /** Blanks in front of a string do not change the numeral read from it. */
  lemma {:induction false} BlanksSkipped(b: string, s: string)
    requires AllBlank(b)
    ensures ReadNumeral(b + s) == ReadNumeral(s)
    decreases |b|
  {
    if b != [] {
      var t := b + s;
      assert IsBlank(t[0]) && t[1..] == b[1..] + s;
      BlanksSkipped(b[1..], s);
    } else {
      assert b + s == s;
    }
  }

  /** `atol` reads past leading blanks and honours an explicit sign after them. */
  lemma AtolBlankAndSign(b: string, d: string)
    requires AllBlank(b) && d != [] && AllDigits(d)
    ensures Atol(b + d) == Value(d)
    ensures Atol(b + ("+" + d)) == Value(d)
    ensures Atol(b + ("-" + d)) == -(Value(d) as int)
  {
    var plus, minus := "+" + d, "-" + d;
    BlanksSkipped(b, d);
    BlanksSkipped(b, plus);
    BlanksSkipped(b, minus);
    assert plus[1..] == d && minus[1..] == d;
  }

  /** Leading zeros denote nothing. */
  lemma {:induction false} ValueZeros(k: nat)
    ensures Value(Zeros(k)) == 0
  {
    if k > 0 {
      assert Zeros(k)[..k - 1] == Zeros(k - 1);
      ValueZeros(k - 1);
    }
  }

  /** Zeros in front change neither the digits nor the number. */
  lemma {:induction false} ZeroPadded(k: nat, d: string)
    requires AllDigits(d)
    ensures var s := Zeros(k) + d;
            && AllDigits(s) && Value(s) == Value(d)
            && forall i :: 0 <= i < k ==> s[i] == '0'
    decreases |d|
  {
    var s := Zeros(k) + d;
    assert forall i :: 0 <= i < |s| ==> s[i] == if i < k then '0' else d[i - k];
    if d == [] {
      assert s == Zeros(k);
      ValueZeros(k);
    } else {
      var d' := d[..|d| - 1];
      assert s[..|s| - 1] == Zeros(k) + d';
      ZeroPadded(k, d');
    }
  }

  /** Two digit strings of one length that denote the same number are equal. */
  lemma {:induction false} ValueInjective(a: string, b: string)
    requires AllDigits(a) && AllDigits(b)
    requires |a| == |b|
    requires Value(a) == Value(b)
    ensures a == b
  {
    if a != [] {
      var n := |a| - 1;
      var pa, pb := Value(a[..n]), Value(b[..n]);
      var da, db := DigitValue(a[n]), DigitValue(b[n]);
      assert pa * 10 + da == pb * 10 + db;
      assert da == db && pa == pb;
      ValueInjective(a[..n], b[..n]);
      assert a[n] == b[n];
      assert a == a[..n] + [a[n]];
      assert b == b[..n] + [b[n]];
    }
  }

  /** A number below `10^k` has a spelling of at most `k` digits. */
  lemma {:induction false} DigitsFit(n: nat, k: nat)
    requires 1 <= k
    requires n < Pow10(k)
    ensures |Digits(n)| <= k
  {
    if n >= 10 {
      assert Pow10(1) == 10;
      assert k >= 2;
      DigitsFit(n / 10, k - 1);
    }
  }
}

=== FILE: foreign_record.dfy ===
/**
 * Foreign-value records of the current serializer (src/core.cpp).
 *
 * When the host meets a value of the registered class, the serialize hook
 * asks the user's hook function for a raw payload, writes a manufactured
 * one-string record whose string is the payload size in twenty digits, then
 * the payload, and returns the size string; the host then writes its own
 * record for that string. Reading, the host parses the manufactured record
 * and hands its string to the unserialize hook, which reads the payload and
 * skips the host's second record.
 */
module ForeignRecord {
  import opened Wrappers
  import opened Bytes
  import opened Decimal
  import opened ByteBuffer
  import opened SizeCodec
  import opened Host

  /** A manufactured record, and the host's record of the size string, are 40 bytes. */
  const HeaderLen: nat := 40

  /**
   * The registered class and the user's hook function in both directions.
   * `serialize` is `None` when the guarded call fails or returns something
   * other than a raw vector.
   */
  datatype Handler<!V> = Handler(
    inherits: V -> bool,
    serialize: V -> Option<seq<byte>>,
    unserialize: seq<byte> -> V)

  /** The payload the serialize hook commits to, if it does not decline. */
  function Payload<V>(h: Handler<V>, x: V): Option<seq<byte>> {
    if h.inherits(x) then h.serialize(x) else None
  }

  /** Every payload fits in the `int` length of one `OutBytes` call. */
  ghost predicate HandlerFits<V(!new)>(h: Handler<V>) {
    forall x :: Payload(h, x).Some? ==> |Payload(h, x).value| <= IntMax
  }

  /**
   * The manufactured record ahead of a payload of `size` bytes: R's
   * one-string record with the plain `CHARSXP` flag word and the size field
   * as its string.
   */
  function RecordHeader(size: nat): (hdr: seq<byte>)
    requires size <= U64Max
    ensures |hdr| == HeaderLen
  {
    DigitsAreBytes(FormatSize(size));
    Pow256Widths();
    StringRecord(CharSxp, FormatSize(size))
  }

  /**
   * The six `OutBytes` calls that write the manufactured record: five `int`
   * fields, then the twenty characters of the size string.
   */
  function WriteHeader(b: Buffer, size: nat): (r: Result<Buffer, WriteError>)
    requires Valid(b)
    requires size <= U64Max
    ensures r.Success? ==> Valid(r.value) && r.value.content == b.content + RecordHeader(size)
    ensures r.Failure? ==> MaxLength < |b.content| + HeaderLen
  {
    Pow256Widths();
    var digits := FormatSize(size);
    DigitsAreBytes(digits);
    var f0, f1, f2, f3, f4 := LE(PersistSxp, 4), LE(0, 4), LE(1, 4), LE(CharSxp, 4), LE(SizeWidth, 4);
    var f5 := StringBytes(digits);
    ConcatSix(f0, f1, f2, f3, f4, f5);
    WriteAll(b, [f0, f1, f2, f3, f4, f5])
  }

  lemma ConcatSix(f0: seq<byte>, f1: seq<byte>, f2: seq<byte>, f3: seq<byte>, f4: seq<byte>, f5: seq<byte>)
    ensures Concat([f0, f1, f2, f3, f4, f5]) == f0 + f1 + f2 + f3 + f4 + f5
  {
    assert Concat([f5]) == f5 by {
      assert [f5][1..] == [];
    }
    assert Concat([f4, f5]) == f4 + f5 by {
      assert [f4, f5][1..] == [f5];
    }
    assert Concat([f3, f4, f5]) == f3 + (f4 + f5) by {
      assert [f3, f4, f5][1..] == [f4, f5];
    }
    assert Concat([f2, f3, f4, f5]) == f2 + (f3 + (f4 + f5)) by {
      assert [f2, f3, f4, f5][1..] == [f3, f4, f5];
    }
    assert Concat([f1, f2, f3, f4, f5]) == f1 + (f2 + (f3 + (f4 + f5))) by {
      assert [f1, f2, f3, f4, f5][1..] == [f2, f3, f4, f5];
    }
    assert [f0, f1, f2, f3, f4, f5][1..] == [f1, f2, f3, f4, f5];
  }

  /**
   * `nano_serializeHook`. It declines (returns nil, writes nothing) when the
   * value is not of the class, or the hook function fails or returns no raw
   * vector. Otherwise it writes the 40-byte manufactured record, then the
   * payload, and returns the size string. Its writes can fail only by
   * crossing `R_XLEN_T_MAX`.
   */
  function SerializeHook<V>(x: V, h: Handler<V>, b: Buffer): (r: Result<(Option<string>, Buffer), WriteError>)
    requires Valid(b)
    requires Payload(h, x).Some? ==> |Payload(h, x).value| <= IntMax
    ensures !h.inherits(x) ==> r == Success((None, b))
    ensures h.serialize(x).None? ==> r == Success((None, b))
    ensures Payload(h, x).Some? && r.Success? ==>
              var p := Payload(h, x).value;
              && r.value.0 == Some(FormatSize(|p|))
              && Valid(r.value.1)
              && r.value.1.content == b.content + RecordHeader(|p|) + p
    ensures Payload(h, x).Some? && r.Failure? ==>
              MaxLength < |b.content| + HeaderLen + |Payload(h, x).value|
  {
    match Payload(h, x)
    case None => Success((None, b))
    case Some(p) =>
      var b6 :- WriteHeader(b, |p|);
      var b7 :- Write(b6, p);
      Success((Some(FormatSize(|p|)), b7))
  }

  /** Why `nano_unserializeHook` fails: a bad size field, or input that ends early. */
  datatype HookError = BadSize(reason: ParseError) | Truncated

  /**
   * `nano_unserializeHook`, handed the string of the manufactured record:
   * parse the size, read that many payload bytes, skip the 40 bytes of the
   * host's record of the same string, and give the payload to the hook
   * function.
   */
  function UnserializeHook<V>(x: string, h: Handler<V>, rd: Reader): (r: Result<(V, Reader), HookError>)
    requires ParseUint64(x).Success? ==> ParseUint64(x).value <= IntMax
    ensures ParseUint64(x).Failure? ==> r == Failure(BadSize(ParseUint64(x).error))
    ensures ParseUint64(x).Success? && |rd.data| < rd.cur + ParseUint64(x).value + HeaderLen ==>
              r == Failure(Truncated)
    ensures ParseUint64(x).Success? && rd.cur + ParseUint64(x).value + HeaderLen <= |rd.data| ==>
              var n := ParseUint64(x).value;
              r == Success((h.unserialize(rd.data[rd.cur..rd.cur + n]), Reader(rd.data, rd.cur + n + HeaderLen)))
  {
    match ParseUint64(x)
    case Failure(e) => Failure(BadSize(e))
    case Success(n) => ReadPayload(n, h, rd)
  }

  /** The hook once the size is known: `n` payload bytes, then the 40 bytes of the host's record, skipped. */
  function ReadPayload<V>(n: nat, h: Handler<V>, rd: Reader): (r: Result<(V, Reader), HookError>)
    ensures |rd.data| < rd.cur + n + HeaderLen ==> r == Failure(Truncated)
    ensures rd.cur + n + HeaderLen <= |rd.data| ==>
              r == Success((h.unserialize(rd.data[rd.cur..rd.cur + n]), Reader(rd.data, rd.cur + n + HeaderLen)))
  {
    match Read(rd, n)
    case Failure(_) => Failure(Truncated)
    case Success(read) =>
      match Read(read.1, HeaderLen)
      case Failure(_) => Failure(Truncated)
      case Success(skipped) => Success((h.unserialize(read.0), skipped.1))
  }

  /**
   * A read by the unserialize hook that succeeded, restored `v` and left the
   * cursor at `rd`.
   */
  ghost predicate Restored<V>(r: Result<(V, Reader), HookError>, v: V, rd: Reader) {
    r.Success? && r.value.0 == v && r.value.1 == rd
  }

  /**
   * The host reads the hook's return value back. Wherever the serialize hook
   * has written a manufactured record and its payload, and whatever follows
   * the host's 40-byte record after them, the string at the record's string
   * position is the size string the hook returned.
   */
  lemma ReturnedStringRoundTrip(before: seq<byte>, p: seq<byte>, trailer: seq<byte>, rest: seq<byte>)
    requires |p| <= IntMax
    requires |trailer| == HeaderLen
    ensures var data := before + RecordHeader(|p|) + p + trailer + rest;
            BytesString(data[|before| + 20..|before| + HeaderLen]) == FormatSize(|p|)
  {
    SizeField(|p|);
    RecordLaid(before, RecordHeader(|p|), p, before + RecordHeader(|p|) + p, trailer, rest);
  }

  /**
   * Consumption matches emission. Handed the size string of a payload
   * written as the serialize hook writes it, the unserialize hook, reading
   * from just past the manufactured record, passes that payload to the hook
   * function and stops exactly at the end of the host's record, whatever
   * bytes follow.
   */
  lemma RecordRoundTrip<V>(h: Handler<V>, p: seq<byte>, before: seq<byte>, trailer: seq<byte>, rest: seq<byte>)
    requires |p| <= IntMax
    requires |trailer| == HeaderLen
    ensures var data := before + RecordHeader(|p|) + p + trailer + rest;
            Restored(UnserializeHook(FormatSize(|p|), h, Reader(data, |before| + HeaderLen)),
                     h.unserialize(p), Reader(data, |before| + HeaderLen + |p| + HeaderLen))
  {
    FormatThenParse(|p|);
    RecordConsumed(h, FormatSize(|p|), before, RecordHeader(|p|), p, before + RecordHeader(|p|) + p, trailer, rest);
  }

  /**
   * The whole trip of one value of the class. The serialize hook wrote its
   * record and payload for `x` and the host followed them with its own
   * record; reading, the host takes the string out of the manufactured record
   * and hands it to the unserialize hook, which, when the hook function's
   * unserialize direction inverts its serialize direction, restores `x` and
   * leaves the cursor just past the host's record.
   */
  lemma ValueRoundTrip<V>(x: V, h: Handler<V>, p: seq<byte>, before: seq<byte>, trailer: seq<byte>, rest: seq<byte>)
    requires Payload(h, x) == Some(p) && |p| <= IntMax
    requires h.unserialize(p) == x
    requires |trailer| == HeaderLen
    ensures var data := before + RecordHeader(|p|) + p + trailer + rest;
            var name := BytesString(data[|before| + 20..|before| + HeaderLen]);
            && name == FormatSize(|p|)
            && Restored(UnserializeHook(name, h, Reader(data, |before| + HeaderLen)), x,
                        Reader(data, |before| + HeaderLen + |p| + HeaderLen))
  {
    ReturnedStringRoundTrip(before, p, trailer, rest);
    RecordRoundTrip(h, p, before, trailer, rest);
  }

  /**
   * Where the pieces of a 40-byte record and its payload sit once the
   * host's record and anything else follow them.
   */
  lemma RecordLaid(before: seq<byte>, hdr: seq<byte>, p: seq<byte>, written: seq<byte>,
                   trailer: seq<byte>, rest: seq<byte>)
    requires |hdr| == HeaderLen
    requires written == before + hdr + p
    requires |trailer| == HeaderLen
    ensures var data := written + trailer + rest;
            && |written| == |before| + HeaderLen + |p|
            && |before| + HeaderLen + |p| + HeaderLen <= |data|
            && data[|before| + 20..|before| + HeaderLen] == hdr[20..]
            && data[|before| + HeaderLen..|before| + HeaderLen + |p|] == p
  {
    var data := written + trailer + rest;
    assert data == before + hdr + p + trailer + rest;
    assert data[|before| + 20..|before| + HeaderLen] == hdr[20..];
  }

  /**
   * A 40-byte record, its payload and the host's 40-byte record, read back
   * from just past the first record with a size string that parses to the
   * payload's length.
   */
  lemma RecordConsumed<V>(h: Handler<V>, name: string, before: seq<byte>, hdr: seq<byte>, p: seq<byte>,
                          written: seq<byte>, trailer: seq<byte>, rest: seq<byte>)
    requires ParseUint64(name) == Success(|p|) && |p| <= IntMax
    requires |hdr| == HeaderLen
    requires written == before + hdr + p
    requires |trailer| == HeaderLen
    ensures var data := written + trailer + rest;
            Restored(UnserializeHook(name, h, Reader(data, |before| + HeaderLen)), h.unserialize(p), Reader(data, |written| + HeaderLen))
  {
    RecordLaid(before, hdr, p, written, trailer, rest);
    ConsumeRecord(h, name, p, written + trailer + rest, |before| + HeaderLen);
  }

  /** The string of a manufactured record is the size field. */
  lemma SizeField(size: nat)
    requires size <= U64Max
    ensures BytesString(RecordHeader(size)[20..]) == FormatSize(size)
  {
    DigitsAreBytes(FormatSize(size));
    Pow256Widths();
    StringRecordLayout(CharSxp, FormatSize(size));
  }

  /**
   * Handed a size string that parses to the length of a payload sitting at
   * the cursor and followed by at least 40 bytes, the unserialize hook reads
   * exactly that payload and the 40 bytes after it.
   */
  lemma ConsumeRecord<V>(h: Handler<V>, name: string, p: seq<byte>, data: seq<byte>, cur: nat)
    requires ParseUint64(name) == Success(|p|) && |p| <= IntMax
    requires cur + |p| + HeaderLen <= |data|
    requires data[cur..cur + |p|] == p
    ensures Restored(UnserializeHook(name, h, Reader(data, cur)), h.unserialize(p), Reader(data, cur + |p| + HeaderLen))
  {
    var rd := Reader(data, cur);
    assert UnserializeHook(name, h, rd) == ReadPayload(|p|, h, rd);
  }

  /** What one host event puts on the wire. */
  function NodeBytes<V(!new)>(n: Node<V>, h: Handler<V>, hostFlags: nat): seq<byte>
    requires HandlerFits(h)
    requires hostFlags < Pow256(4)
  {
    match n
    case Native(bytes) => bytes
    case Candidate(x, fallback) =>
      match Payload(h, x)
      case None => fallback
      case Some(p) =>
        DigitsAreBytes(FormatSize(|p|));
        RecordHeader(|p|) + p + StringRecord(hostFlags, FormatSize(|p|))
  }

  /** The writes of one host event: its own bytes, or the hook's record and the host's. */
  function WriteNode<V(!new)>(n: Node<V>, h: Handler<V>, hostFlags: nat, b: Buffer): (r: Result<Buffer, WriteError>)
    requires Valid(b)
    requires NodeFits(n) && HandlerFits(h)
    requires hostFlags < Pow256(4)
    ensures r.Success? ==> Valid(r.value) && r.value.content == b.content + NodeBytes(n, h, hostFlags)
    ensures r.Failure? ==> MaxLength < |b.content| + |NodeBytes(n, h, hostFlags)|
  {
    match n
    case Native(bytes) => Write(b, bytes)
    case Candidate(x, fallback) => WriteCandidate(x, fallback, h, hostFlags, b)
  }

  /**
   * A candidate: the serialize hook runs first; if it declines, the host
   * writes its own bytes, otherwise its record of the returned string.
   */
  function WriteCandidate<V(!new)>(x: V, fallback: seq<byte>, h: Handler<V>, hostFlags: nat, b: Buffer): (r: Result<Buffer, WriteError>)
    requires Valid(b)
    requires |fallback| <= IntMax && HandlerFits(h)
    requires hostFlags < Pow256(4)
    ensures r.Success? ==> Valid(r.value) && r.value.content == b.content + NodeBytes(Candidate(x, fallback), h, hostFlags)
    ensures r.Failure? ==> MaxLength < |b.content| + |NodeBytes(Candidate(x, fallback), h, hostFlags)|
  {
    var hooked :- SerializeHook(x, h, b);
    match hooked
    case (None, b1) => Write(b1, fallback)
    case (Some(s), b1) =>
      DigitsAreBytes(s);
      Pow256Widths();
      Write(b1, StringRecord(hostFlags, s))
  }

  /** What a run of host events puts on the wire. */
  function Emitted<V(!new)>(nodes: seq<Node<V>>, h: Handler<V>, hostFlags: nat): seq<byte>
    requires HandlerFits(h)
    requires hostFlags < Pow256(4)
  {
    if nodes == [] then [] else NodeBytes(nodes[0], h, hostFlags) + Emitted(nodes[1..], h, hostFlags)
  }

  /**
   * The host's walk writing through `nano_write_bytes`, with the serialize
   * hook consulted at each candidate. Its output is the concatenation of
   * what each event puts on the wire, and it fails only by crossing
   * `R_XLEN_T_MAX`.
   */
  function SerializeNodes<V(!new)>(nodes: seq<Node<V>>, h: Handler<V>, hostFlags: nat, b: Buffer): (r: Result<Buffer, WriteError>)
    requires Valid(b)
    requires NodesFit(nodes) && HandlerFits(h)
    requires hostFlags < Pow256(4)
    ensures r.Success? ==> Valid(r.value) && r.value.content == b.content + Emitted(nodes, h, hostFlags)
    ensures r.Failure? ==> MaxLength < |b.content| + |Emitted(nodes, h, hostFlags)|
    decreases |nodes|
  {
    if nodes == [] then Success(b)
    else
      var b' :- WriteNode(nodes[0], h, hostFlags, b);
      assert b'.content == b.content + NodeBytes(nodes[0], h, hostFlags);
      var r := SerializeNodes(nodes[1..], h, hostFlags, b');
      assert r.Success? ==> r.value.content == b.content + Emitted(nodes, h, hostFlags);
      r
  }

  /**
   * `sakura_serialize` followed by the copy-out of `sakura_r_serialize`: the
   * bytes of the whole walk, from a fresh buffer, refused when they are too
   * long for a raw vector.
   */
  function Serialize<V(!new)>(nodes: seq<Node<V>>, h: Handler<V>, hostFlags: nat): (r: Result<seq<byte>, WriteError>)
    requires NodesFit(nodes) && HandlerFits(h)
    requires hostFlags < Pow256(4)
    ensures r.Success? ==> r.value == Emitted(nodes, h, hostFlags)
    ensures r.Success? <==> |Emitted(nodes, h, hostFlags)| <= MaxLength
  {
    var b :- SerializeNodes(nodes, h, hostFlags, Init());
    CopyOut(b.content)
  }
}

=== FILE: host.dfy ===
/**
 * What this model assumes of the host serializer (`R_Serialize`), which it
 * does not otherwise describe.
 *
 * The host walks an object tree and writes bytes of its own; at certain
 * values it first offers the value to the persistent-name hook. The model
 * reduces one serialization to the sequence of such events: a `Native` run of
 * bytes the host writes itself, or a `Candidate` value offered to the hook,
 * with the bytes the host writes for it when the hook declines. When the
 * hook returns a string instead, the host writes a persistent-string record
 * holding that string.
 */
module Host {
  import opened Bytes
  import opened Decimal
  import opened ByteBuffer

  /** R's `PERSISTSXP` flag word: "a persistent-name record follows". */
  const PersistSxp: nat := 247
  /** R's `CHARSXP` type code: one element of a string vector. */
  const CharSxp: nat := 9
  /** The fixed part of a one-string record, ahead of the characters. */
  const RecordPrefixLen: nat := 20

  datatype Node<V> = Native(bytes: seq<byte>) | Candidate(value: V, fallback: seq<byte>)

  /** Every host write passes its length as a C `int`. */
  predicate NodesFit<V>(nodes: seq<Node<V>>) {
    forall i :: 0 <= i < |nodes| ==> NodeFits(nodes[i])
  }

  predicate NodeFits<V>(n: Node<V>) {
    match n
    case Native(bytes) => |bytes| <= IntMax
    case Candidate(_, fallback) => |fallback| <= IntMax
  }

  /** Decimal strings consist of single bytes. */
  lemma DigitsAreBytes(s: string)
    requires AllDigits(s)
    ensures IsByteString(s)
  {
  }

  /**
   * A persistent-name record holding the one string `s`, in the shape R
   * writes it: the flag word `PERSISTSXP`, a zero, the element count one, the
   * element's flag word, the string length, then the characters.
   */
  function StringRecord(flags: nat, s: string): (rec: seq<byte>)
    requires flags < Pow256(4)
    requires |s| <= IntMax && IsByteString(s)
    ensures |rec| == RecordPrefixLen + |s|
  {
    Pow256Widths();
    LE(PersistSxp, 4) + LE(0, 4) + LE(1, 4) + LE(flags, 4) + LE(|s|, 4) + StringBytes(s)
  }

  /** Reading the fields of a string record back gives what was put in. */
  lemma StringRecordLayout(flags: nat, s: string)
    requires flags < Pow256(4)
    requires |s| <= IntMax && IsByteString(s)
    ensures var rec := StringRecord(flags, s);
            && FromLE(rec[0..4]) == PersistSxp
            && FromLE(rec[4..8]) == 0
            && FromLE(rec[8..12]) == 1
            && FromLE(rec[12..16]) == flags
            && FromLE(rec[16..20]) == |s|
            && BytesString(rec[RecordPrefixLen..]) == s
  {
    Pow256Widths();
    var f0, f1, f2, f3, f4 := LE(PersistSxp, 4), LE(0, 4), LE(1, 4), LE(flags, 4), LE(|s|, 4);
    var rec := StringRecord(flags, s);
    assert rec == f0 + f1 + f2 + f3 + f4 + StringBytes(s);
    assert rec[0..4] == f0 && rec[4..8] == f1 && rec[8..12] == f2;
    assert rec[12..16] == f3 && rec[16..20] == f4;
    assert rec[RecordPrefixLen..] == StringBytes(s);
    StringBytesRoundTrip(s);
  }
}

=== FILE: ref_container.dfy ===
/**
 * The container format of the older serializer (src/core.c).
 *
 * With a hook, `sakura_serialize` writes a 12-byte header (the marker 0x7,
 * the vec integer cut to a byte, then zeros), lets the host write its stream with
 * `nano_inHook` collecting the values of the registered class, and, if any
 * were collected, stores the cursor where the host stream ended in bytes 4
 * to 11 and appends a reference section there: one blob for the whole list
 * (vec layout), or a count followed by one length-prefixed blob per element.
 * `sakura_unserialize` dispatches on the first byte and restores the list
 * from the reference section before the host reads its stream from byte 12.
 */
module RefContainer {
  import opened Wrappers
  import opened Bytes
  import opened Decimal
  import opened ByteBuffer
  import opened Host
  import opened RefHooks
  import opened RefLayout
  import opened SectionReader

  /**
   * The hook pairlist: the class, the serialization function (applied to
   * each element, or to the whole list in the vec layout), the
   * unserialization function (likewise), and the vec flag, an R integer.
   * The serialization function is `None` where the guarded call fails or
   * returns something other than a raw vector.
   */
  datatype Hook<!V> = Hook(
    inherits: V -> bool,
    serialize: V -> Option<seq<byte>>,
    serializeAll: Session<V> -> Option<seq<byte>>,
    unserialize: seq<byte> -> V,
    unserializeAll: seq<byte> -> seq<V>,
    vec: int)

  /** Raw vectors are never longer than `R_XLEN_T_MAX`. */
  ghost predicate HookFits<V(!new)>(h: Hook<V>) {
    && (forall x :: h.serialize(x).Some? ==> |h.serialize(x).value| <= MaxLength)
    && (forall s :: h.serializeAll(s).Some? ==> |h.serializeAll(s).value| <= MaxLength)
  }

  /**
   * The host's writes for a run of events under `nano_inHook`, when `k`
   * values were collected before it.
   */
  function WriteStream<V>(nodes: seq<Node<V>>, inherits: V -> bool, hostFlags: nat, b: Buffer, k: nat)
    : (r: Result<Buffer, WriteError>)
    requires Valid(b) && NodesFit(nodes)
    requires hostFlags < Pow256(4)
    requires k + |nodes| <= MaxLength
    ensures r.Success? ==> Valid(r.value)
    ensures r.Success? ==> r.value.content == b.content + HostStream(nodes, inherits, hostFlags, k)
    ensures r.Failure? ==> MaxLength < |b.content| + |HostStream(nodes, inherits, hostFlags, k)|
  {
    PiecesOfFittingNodes(nodes, inherits, k);
    WriteAll(b, PieceChunks(Pieces(nodes, inherits, k), hostFlags))
  }

  /**
   * The session as `nano_inHook` leaves it after a run of events: it grows by
   * exactly the collected values and keeps its names well formed.
   */
  function Collect<V>(nodes: seq<Node<V>>, inherits: V -> bool, s: Session<V>): (r: Session<V>)
    requires |s.items| + |nodes| <= MaxLength
    ensures r.items == s.items + Collected(nodes, inherits)
    ensures WellNamed(s) ==> WellNamed(r)
    decreases |nodes|
  {
    if nodes == [] then s
    else
      var s1 := CollectNode(nodes[0], inherits, s);
      CollectedCons(nodes, inherits);
      Collect(nodes[1..], inherits, s1)
  }

  /** The hook call for one event: only candidates are offered to `nano_inHook`. */
  function CollectNode<V>(n: Node<V>, inherits: V -> bool, s: Session<V>): (r: Session<V>)
    requires |s.items| < MaxLength
    ensures r.items == s.items + NodeCollected(n, inherits)
    ensures WellNamed(s) ==> WellNamed(r)
  {
    match n
    case Native(_) => s
    case Candidate(x, _) => InHook(x, inherits, s).1
  }

  // ---------------------------------------------------------------------
  // The reference section

  /**
   * The blobs the non-vec writer of src/core.c emits: one per element whose
   * serialization succeeds. An element whose serialization fails is skipped.
   */
  function BlobsAsWritten<V(!new)>(h: Hook<V>, items: seq<V>): (blobs: seq<seq<byte>>)
    requires HookFits(h)
    ensures BlobsFit(blobs) && |blobs| <= |items|
  {
    if items == [] then []
    else
      match h.serialize(items[0])
      case None => BlobsAsWritten(h, items[1..])
      case Some(p) => [p] + BlobsAsWritten(h, items[1..])
  }

  /** The blobs of the corrected writer: an empty blob stands for an element that failed. */
  function Blobs<V(!new)>(h: Hook<V>, items: seq<V>): (blobs: seq<seq<byte>>)
    requires HookFits(h)
    ensures BlobsFit(blobs) && |blobs| == |items|
    ensures forall i :: 0 <= i < |items| ==> blobs[i] == h.serialize(items[i]).GetOr([])
  {
    seq(|items|, i requires 0 <= i < |items| => h.serialize(items[i]).GetOr([]))
  }

  /** The section as src/core.c writes it: the count of all elements, blobs only for some. */
  function RefSectionAsWritten<V(!new)>(h: Hook<V>, items: seq<V>): seq<byte>
    requires HookFits(h) && |items| <= MaxLength
  {
    Section(|items|, BlobsAsWritten(h, items))
  }

  /** The corrected section: the count of all elements and one entry for each. */
  function RefSection<V(!new)>(h: Hook<V>, items: seq<V>): seq<byte>
    requires HookFits(h) && |items| <= MaxLength
  {
    Section(|items|, Blobs(h, items))
  }

  /**
   * The entry loop with its `R_Realloc` growth: an entry that does not fit
   * grows the storage to exactly what it needs.
   */
  function PutEntries(b: Buffer, blobs: seq<seq<byte>>): (r: Buffer)
    requires |b.content| <= b.cap && BlobsFit(blobs)
    ensures r.content == b.content + EntriesBytes(blobs)
    ensures |r.content| <= r.cap
    decreases |blobs|
  {
    if blobs == [] then b
    else
      EntriesCons(blobs);
      var entry := LengthField(|blobs[0]|) + blobs[0];
      PutEntries(Append(b, entry, |b.content| + |entry|), blobs[1..])
  }

  /**
   * The count, written after growing the storage by `SAKURA_INIT_BUFSIZE`
   * when eight bytes do not fit, then the entries.
   */
  function PutSection(b: Buffer, count: nat, blobs: seq<seq<byte>>): (r: Buffer)
    requires |b.content| <= b.cap
    requires count <= MaxLength && BlobsFit(blobs)
    ensures r.content == b.content + Section(count, blobs)
    ensures |r.content| <= r.cap
  {
    var len := LengthField(count);
    var b' := Append(b, len, |b.content| + InitBufSize);
    var r := PutEntries(b', blobs);
    assert r.content == b.content + (len + EntriesBytes(blobs));
    r
  }

  /** The vec layout: the whole list's blob, if its serialization succeeds, else nothing. */
  function PutBlob(b: Buffer, blob: Option<seq<byte>>): (r: Buffer)
    requires |b.content| <= b.cap
    ensures r.content == b.content + blob.GetOr([])
    ensures |r.content| <= r.cap
  {
    match blob
    case None => b
    case Some(p) => Append(b, p, |b.content| + |p|)
  }

  /** Entries are read back as written, whatever comes before or after them. */
  lemma {:induction false} EntriesRoundTrip(pre: seq<byte>, blobs: seq<seq<byte>>, post: seq<byte>)
    requires BlobsFit(blobs)
    ensures var data := pre + EntriesBytes(blobs) + post;
            ReadEntries(Reader(data, |pre|), |blobs|) == Success((blobs, Reader(data, EntriesEnd(|pre|, blobs))))
    ensures EntriesEnd(|pre|, blobs) == |pre| + |EntriesBytes(blobs)|
  {
    var data := pre + EntriesBytes(blobs) + post;
    EntriesLaid(pre, blobs, post);
    LaidRead(data, |pre|, blobs);
  }

  /** A section is read back as written, whatever follows it. */
  lemma SectionRoundTrip<V>(blobs: seq<seq<byte>>, post: seq<byte>, dec: seq<byte> -> V)
    requires |blobs| <= MaxLength && BlobsFit(blobs)
    ensures ReadRefs(Section(|blobs|, blobs) + post, dec) == Success(Decoded(blobs, dec))
  {
    var len := LengthField(|blobs|);
    var data := Section(|blobs|, blobs) + post;
    assert data == len + EntriesBytes(blobs) + post;
    assert data[0..FieldWidth] == len;
    FieldFits(|blobs|);
    EntriesRoundTrip(len, blobs, post);
  }

  /**
   * The corrected section is read back with one element per collected value:
   * the decoding of its blob, or of an empty blob where its serialization
   * failed.
   */
  lemma RefSectionRoundTrip<V(!new)>(h: Hook<V>, items: seq<V>, post: seq<byte>)
    requires HookFits(h) && |items| <= MaxLength
    ensures var r := ReadRefs(RefSection(h, items) + post, h.unserialize);
            && r.Success? && |r.value| == |items|
            && forall i :: 0 <= i < |items| ==> r.value[i] == h.unserialize(h.serialize(items[i]).GetOr([]))
  {
    SectionRoundTrip(Blobs(h, items), post, h.unserialize);
  }

  /** When every element serializes, the section as written is the corrected one. */
  lemma {:induction false} AsWrittenWhenAllSucceed<V(!new)>(h: Hook<V>, items: seq<V>)
    requires HookFits(h)
    requires forall i :: 0 <= i < |items| ==> h.serialize(items[i]).Some?
    ensures BlobsAsWritten(h, items) == Blobs(h, items)
    decreases |items|
  {
    if items != [] {
      AsWrittenWhenAllSucceed(h, items[1..]);
      assert Blobs(h, items) == [Blobs(h, items)[0]] + Blobs(h, items[1..]);
    }
  }

  /**
   * The section as written cannot be read back once an element fails: for a
   * single element whose serialization fails, the count says one but no
   * entry follows, and the reader runs off the end.
   */
  lemma SkippedItemBreaksSection<V(!new)>(h: Hook<V>, x: V, dec: seq<byte> -> V)
    requires HookFits(h)
    requires h.serialize(x).None?
    ensures ReadRefs(RefSectionAsWritten(h, [x]), dec) == Failure(SectionShort)
  {
    var section := RefSectionAsWritten(h, [x]);
    assert BlobsAsWritten(h, [x]) == [] by {
      assert [x][1..] == [];
    }
    assert section == LengthField(1);
    FieldFits(1);
    assert section[0..FieldWidth] == LengthField(1);
  }

  // ---------------------------------------------------------------------
  // sakura_serialize and sakura_unserialize

  /** What every event puts on the wire when no hook is registered. */
  function PlainChunks<V>(nodes: seq<Node<V>>): (chunks: seq<seq<byte>>)
    requires NodesFit(nodes)
    ensures ChunksFit(chunks) && |chunks| == |nodes|
  {
    seq(|nodes|, i requires 0 <= i < |nodes| =>
      match nodes[i]
      case Native(bytes) => bytes
      case Candidate(_, fallback) => fallback)
  }

  /** The result of `sakura_serialize`, and the list left in `TAG(hook)`. */
  datatype Output<V> = Output(bytes: seq<byte>, session: Session<V>)

  /**
   * `sakura_serialize` with the copy-out of the result. Without a hook the
   * host writes everything itself from a fresh buffer. With one, the buffer
   * starts with the header; if the session is non-empty after the walk, the
   * offset is patched in, the reference section of the hook's layout is
   * appended, and the session is cleared. The copy-out refuses a result too
   * long for a raw vector; the section's appends check no limit of their own.
   */
  function Serialize<V(!new)>(nodes: seq<Node<V>>, hook: Option<Hook<V>>, hostFlags: nat, s0: Session<V>)
    : (r: Result<Output<V>, WriteError>)
    requires NodesFit(nodes) && hostFlags < Pow256(4)
    requires hook.Some? ==> HookFits(hook.value) && WellNamed(s0) && |s0.items| + |nodes| <= MaxLength
    ensures hook.None? && r.Success? ==> r.value == Output(Concat(PlainChunks(nodes)), s0)
    ensures hook.None? ==> (r.Success? <==> |Concat(PlainChunks(nodes))| <= MaxLength)
    ensures hook.Some? && r.Success? ==> r.value.session == Empty()
    ensures r.Success? ==> |r.value.bytes| <= MaxLength
  {
    match hook
    case None =>
      var b :- WriteAll(Init(), PlainChunks(nodes));
      var bytes :- CopyOut(b.content);
      Success(Output(bytes, s0))
    case Some(h) =>
      var b :- WriteStream(nodes, h.inherits, hostFlags, Buffer(Header(h.vec), InitBufSize), |s0.items|);
      var s := Collect(nodes, h.inherits, s0);
      if s.items == [] then
        var bytes :- CopyOut(b.content);
        Success(Output(bytes, s))
      else
        var bytes :- CopyOut(Finish(h, b, s));
        Success(Output(bytes, Empty()))
  }

  /**
   * The section the hook's layout appends, as src/core.c writes it: the
   * whole list's blob, or the count of all elements with an entry for each
   * one that serialized.
   */
  function SectionOf<V(!new)>(h: Hook<V>, s: Session<V>): seq<byte>
    requires HookFits(h) && |s.items| <= MaxLength
  {
    if h.vec != 0 then h.serializeAll(s).GetOr([]) else RefSectionAsWritten(h, s.items)
  }

  /**
   * The offset patch and the reference section, after a walk that collected
   * something. Whatever the storage grows to on the way, the result is the
   * patched buffer followed by the section.
   */
  function Finish<V(!new)>(h: Hook<V>, b: Buffer, s: Session<V>): (bytes: seq<byte>)
    requires HookFits(h) && Valid(b) && HeaderSize <= |b.content|
    requires |s.items| <= MaxLength
    ensures bytes == PatchOffset(b.content) + SectionOf(h, s)
  {
    var patched := Buffer(PatchOffset(b.content), b.cap);
    var r := if h.vec != 0 then PutBlob(patched, h.serializeAll(s))
             else PutSection(patched, |s.items|, BlobsAsWritten(h, s.items));
    r.content
  }

  /**
   * The container `sakura_serialize` produces with a hook: the header, the
   * host stream from byte 12 with a placeholder for every collected value,
   * and then either nothing, with an offset of zero, when nothing was
   * collected, or the hook's section at the offset where the stream ends.
   * The call succeeds exactly when the whole output, section included, fits
   * in a raw vector.
   */
  lemma ContainerLayout<V(!new)>(nodes: seq<Node<V>>, h: Hook<V>, hostFlags: nat, s0: Session<V>)
    requires NodesFit(nodes) && hostFlags < Pow256(4)
    requires HookFits(h) && WellNamed(s0) && |s0.items| + |nodes| <= MaxLength
    ensures var r := Serialize(nodes, Some(h), hostFlags, s0);
            var stream := HostStream(nodes, h.inherits, hostFlags, |s0.items|);
            var s := Collect(nodes, h.inherits, s0);
            var end := HeaderSize + |stream|;
            && (r.Success? <==> end + (if s.items == [] then 0 else |SectionOf(h, s)|) <= MaxLength)
            && (r.Success? && s.items == [] ==> Container(r.value.bytes, h.vec, stream, 0) && |r.value.bytes| == end)
            && (r.Success? && s.items != [] ==> Container(r.value.bytes, h.vec, stream, end) && r.value.bytes[end..] == SectionOf(h, s))
  {
    var stream := HostStream(nodes, h.inherits, hostFlags, |s0.items|);
    var w := WriteStream(nodes, h.inherits, hostFlags, Buffer(Header(h.vec), InitBufSize), |s0.items|);
    var s := Collect(nodes, h.inherits, s0);
    var r := Serialize(nodes, Some(h), hostFlags, s0);
    if w.Failure? {
      assert r.Failure?;
    } else {
      var b := w.value;
      assert b.content == Header(h.vec) + stream;
      if s.items == [] {
        var c := CopyOut(b.content);
        assert r.Success? == c.Success? && (r.Success? ==> r.value.bytes == c.value);
        UnpatchedOut(h.vec, stream);
      } else {
        var c := CopyOut(Finish(h, b, s));
        assert r.Success? == c.Success? && (r.Success? ==> r.value.bytes == c.value);
        FinishedOut(h, b, s, stream);
      }
    }
  }

  /** The copy-out of a container that collected nothing: refused exactly when header and stream are too long. */
  lemma UnpatchedOut(vec: int, stream: seq<byte>)
    ensures var c := CopyOut(Header(vec) + stream);
            && (c.Success? <==> HeaderSize + |stream| <= MaxLength)
            && (c.Success? ==> Container(c.value, vec, stream, 0) && |c.value| == HeaderSize + |stream|)
  {
    Unpatched(vec, stream);
  }

  /** The copy-out of a finished container: refused exactly when the section takes it past the limit. */
  lemma FinishedOut<V(!new)>(h: Hook<V>, b: Buffer, s: Session<V>, stream: seq<byte>)
    requires HookFits(h) && Valid(b) && |s.items| <= MaxLength
    requires b.content == Header(h.vec) + stream
    ensures var c := CopyOut(Finish(h, b, s));
            var end := HeaderSize + |stream|;
            && (c.Success? <==> end + |SectionOf(h, s)| <= MaxLength)
            && (c.Success? ==> Container(c.value, h.vec, stream, end) && c.value[end..] == SectionOf(h, s))
  {
    Patched(h.vec, stream, SectionOf(h, s));
  }

  /** Where the host starts reading, and the restored list `nano_outHook` consults. */
  datatype Start<V> = Start(cur: nat, refs: Option<seq<V>>)

  /**
   * Why `sakura_unserialize` refuses: not data it recognises, an offset with
   * no hook to decode the section, an offset beyond the end, or a section it
   * cannot read.
   */
  datatype UnserializeError = NotSerialized | NoHook | OffsetBeyondEnd | BadSection(e: SectionError)

  /**
   * The dispatch of `sakura_unserialize`. Data of at most twelve bytes, or
   * whose first byte is none of the host's format markers `A`, `B`, `X` and
   * the marker 0x7, is refused. A host marker starts the host at byte 0 with
   * no hook; 0x7 starts it at byte 12, and a nonzero offset first restores
   * the list from the section there, by the layout byte 1 names.
   */
  function Unserialize<V>(data: seq<byte>, hook: Option<Hook<V>>): (r: Result<Start<V>, UnserializeError>)
    ensures |data| <= HeaderSize ==> r == Failure(NotSerialized)
    ensures HeaderSize < |data| && data[0] in {0x41, 0x42, 0x58} ==> r == Success(Start(0, None))
    ensures data != [] && data[0] !in {0x41, 0x42, 0x58, 7} ==> r == Failure(NotSerialized)
    ensures r.Success? ==> HeaderSize < |data| && (data[0] == 7 <==> r.value.cur == HeaderSize)
    ensures r.Success? && data[0] != 7 ==> r.value == Start(0, None) && data[0] in {0x41, 0x42, 0x58}
    ensures r.Success? && data[0] == 7 ==> (r.value.refs.None? <==> FromLE(data[4..HeaderSize]) == 0)
    ensures HeaderSize < |data| && data[0] == 7 && FromLE(data[4..HeaderSize]) == 0 ==>
              r == Success(Start(HeaderSize, None))
    ensures HeaderSize < |data| && data[0] == 7 && FromLE(data[4..HeaderSize]) != 0 && hook.None? ==>
              r == Failure(NoHook)
    ensures HeaderSize < |data| && data[0] == 7 && hook.Some? && |data| < FromLE(data[4..HeaderSize]) ==>
              r == Failure(OffsetBeyondEnd)
    ensures HeaderSize < |data| && data[0] == 7 && hook.Some? && data[1] != 0 ==>
              var offset := FromLE(data[4..HeaderSize]);
              0 < offset <= |data| ==> r == Success(Start(HeaderSize, Some(hook.value.unserializeAll(data[offset..]))))
    ensures HeaderSize < |data| && data[0] == 7 && hook.Some? && data[1] == 0 ==>
              var offset := FromLE(data[4..HeaderSize]);
              0 < offset <= |data| ==>
                var refs := ReadRefs(data[offset..], hook.value.unserialize);
                && (refs.Failure? ==> r == Failure(BadSection(refs.error)))
                && (refs.Success? ==> r == Success(Start(HeaderSize, Some(refs.value))))
  {
    if |data| <= HeaderSize then Failure(NotSerialized)
    else if data[0] == 0x41 || data[0] == 0x42 || data[0] == 0x58 then Success(Start(0, None))
    else if data[0] != 7 then Failure(NotSerialized)
    else
      var offset := FromLE(data[4..HeaderSize]);
      if offset == 0 then Success(Start(HeaderSize, None))
      else if hook.None? then Failure(NoHook)
      else if offset > |data| then Failure(OffsetBeyondEnd)
      else if data[1] != 0 then Success(Start(HeaderSize, Some(hook.value.unserializeAll(data[offset..]))))
      else
        match ReadRefs(data[offset..], hook.value.unserialize)
        case Failure(e) => Failure(BadSection(e))
        case Success(refs) => Success(Start(HeaderSize, Some(refs)))
  }

  /**
   * What the reader restores from a container's section when the layout
   * byte is read as written and, outside the vec layout, every element has
   * its entry: the hook's unserialization of the whole blob, or each
   * element's blob decoded in turn.
   */
  function Restored<V(!new)>(h: Hook<V>, s: Session<V>): seq<V>
    requires HookFits(h) && |s.items| <= MaxLength
  {
    if h.vec != 0 then h.unserializeAll(h.serializeAll(s).GetOr([]))
    else Decoded(Blobs(h, s.items), h.unserialize)
  }

  /** Every value of the class serializes: the guarded call returns a raw vector. */
  ghost predicate SerializesClass<V(!new)>(h: Hook<V>) {
    forall x :: h.inherits(x) ==> h.serialize(x).Some?
  }

  /** Every value of the session serializes on its own, so each has its entry in a per-element section. */
  predicate ItemsSerialize<V>(h: Hook<V>, s: Session<V>) {
    forall j :: 0 <= j < |s.items| ==> h.serialize(s.items[j]).Some?
  }

  /**
   * Unserializing what `sakura_serialize` wrote with a hook, after it met a
   * value of the class (the event at index `i`), restores the list from the
   * section by the layout the writer chose, and starts the host at byte 12.
   * The writer as it stands needs two things for this: the vec integer's
   * low byte must still say whether it is zero, and outside the vec layout
   * every collected value must serialize, since one that fails leaves no
   * entry under the count.
   */
  lemma SerializeThenUnserialize<V(!new)>(nodes: seq<Node<V>>, h: Hook<V>, hostFlags: nat, s0: Session<V>, i: nat)
    requires NodesFit(nodes) && hostFlags < Pow256(4)
    requires HookFits(h) && WellNamed(s0) && |s0.items| + |nodes| <= MaxLength
    requires FlagKept(h.vec)
    requires h.vec == 0 ==> ItemsSerialize(h, Collect(nodes, h.inherits, s0))
    requires i < |nodes| && nodes[i].Candidate? && h.inherits(nodes[i].value)
    ensures var r := Serialize(nodes, Some(h), hostFlags, s0);
            var s := Collect(nodes, h.inherits, s0);
            r.Success? ==> Unserialize(r.value.bytes, Some(h)) == Success(Start(HeaderSize, Some(Restored(h, s))))
  {
    var r := Serialize(nodes, Some(h), hostFlags, s0);
    if r.Success? {
      var stream := HostStream(nodes, h.inherits, hostFlags, |s0.items|);
      var s := Collect(nodes, h.inherits, s0);
      WrittenContainer(nodes, h, hostFlags, s0, i);
      ReadContainer(r.value.bytes, h, stream, s);
    }
  }

  /** After meeting a value of the class, the writer's output is a container with its section at the end of the stream. */
  lemma WrittenContainer<V(!new)>(nodes: seq<Node<V>>, h: Hook<V>, hostFlags: nat, s0: Session<V>, i: nat)
    requires NodesFit(nodes) && hostFlags < Pow256(4)
    requires HookFits(h) && WellNamed(s0) && |s0.items| + |nodes| <= MaxLength
    requires i < |nodes| && nodes[i].Candidate? && h.inherits(nodes[i].value)
    ensures var r := Serialize(nodes, Some(h), hostFlags, s0);
            var stream := HostStream(nodes, h.inherits, hostFlags, |s0.items|);
            var s := Collect(nodes, h.inherits, s0);
            r.Success? ==>
              && stream != []
              && Container(r.value.bytes, h.vec, stream, HeaderSize + |stream|)
              && r.value.bytes[HeaderSize + |stream|..] == SectionOf(h, s)
  {
    CollectedAt(nodes, h.inherits, i);
    ContainerLayout(nodes, h, hostFlags, s0);
    StreamNonEmpty(nodes, h.inherits, hostFlags, |s0.items|);
  }

  /** A session of values of the class, grown by a walk, still holds only values that serialize. */
  lemma CollectSerializes<V(!new)>(nodes: seq<Node<V>>, h: Hook<V>, s0: Session<V>)
    requires |s0.items| + |nodes| <= MaxLength
    requires SerializesClass(h)
    requires forall j :: 0 <= j < |s0.items| ==> h.inherits(s0.items[j])
    ensures ItemsSerialize(h, Collect(nodes, h.inherits, s0))
  {
    var s := Collect(nodes, h.inherits, s0);
    var c := Collected(nodes, h.inherits);
    CollectedOfClass(nodes, h.inherits);
    assert s.items == s0.items + c;
    forall j | 0 <= j < |s.items|
      ensures h.serialize(s.items[j]).Some?
    {
      if j < |s0.items| {
        assert s.items[j] == s0.items[j];
      } else {
        assert s.items[j] == c[j - |s0.items|];
      }
    }
  }

  /**
   * The reader on a container whose section sits where the offset field
   * says, when the layout byte is read as the writer meant it and every
   * element of a per-element section has its entry.
   */
  lemma ReadContainer<V(!new)>(bytes: seq<byte>, h: Hook<V>, stream: seq<byte>, s: Session<V>)
    requires HookFits(h) && |s.items| <= MaxLength
    requires FlagKept(h.vec)
    requires h.vec == 0 ==> forall j :: 0 <= j < |s.items| ==> h.serialize(s.items[j]).Some?
    requires stream != []
    requires Container(bytes, h.vec, stream, HeaderSize + |stream|)
    requires bytes[HeaderSize + |stream|..] == SectionOf(h, s)
    ensures Unserialize(bytes, Some(h)) == Success(Start(HeaderSize, Some(Restored(h, s))))
  {
    if h.vec == 0 {
      AsWrittenWhenAllSucceed(h, s.items);
      assert SectionOf(h, s) == RefSection(h, s.items);
      RefSectionRoundTrip(h, s.items, []);
      assert RefSection(h, s.items) + [] == RefSection(h, s.items);
      assert Decoded(Blobs(h, s.items), h.unserialize) == ReadRefs(RefSection(h, s.items), h.unserialize).value;
    }
  }

  /**
   * The corrected half of the flag defect: the container the writer lays
   * out, with byte 1 written as `FlagByte` rather than as the truncated
   * integer, reads back by the writer's layout for every vec integer, with
   * no condition on its low byte.
   */
  lemma CorrectedFlagReadsBack<V(!new)>(bytes: seq<byte>, h: Hook<V>, stream: seq<byte>, s: Session<V>)
    requires HookFits(h) && |s.items| <= MaxLength
    requires h.vec == 0 ==> ItemsSerialize(h, s)
    requires stream != []
    requires Container(bytes, h.vec, stream, HeaderSize + |stream|)
    requires bytes[HeaderSize + |stream|..] == SectionOf(h, s)
    ensures Unserialize(bytes[1 := FlagByte(h.vec)], Some(h)) == Success(Start(HeaderSize, Some(Restored(h, s))))
  {
    var fixed := bytes[1 := FlagByte(h.vec)];
    var h1 := h.(vec := if h.vec != 0 then 1 else 0);
    var end := HeaderSize + |stream|;
    assert fixed[4..HeaderSize] == bytes[4..HeaderSize];
    assert fixed[HeaderSize..end] == bytes[HeaderSize..end];
    assert fixed[end..] == bytes[end..];
    assert Container(fixed, h1.vec, stream, end);
    assert SectionOf(h1, s) == SectionOf(h, s);
    ReadContainer(fixed, h1, stream, s);
    assert Restored(h1, s) == Restored(h, s);
  }

  /**
   * The reader on a vec-layout container whose vec integer has a zero low
   * byte, such as 256: byte 1 says zero, so the reader takes the whole
   * list's blob for a per-element section and parses a count out of its
   * first eight bytes. A blob shorter than that, the empty one a failed
   * serialization leaves among them, is refused outright.
   */
  lemma LostFlagMisreadsBlob<V(!new)>(bytes: seq<byte>, h: Hook<V>, stream: seq<byte>, s: Session<V>)
    requires HookFits(h) && |s.items| <= MaxLength
    requires h.vec != 0 && !FlagKept(h.vec)
    requires stream != []
    requires Container(bytes, h.vec, stream, HeaderSize + |stream|)
    requires bytes[HeaderSize + |stream|..] == SectionOf(h, s)
    ensures var blob := h.serializeAll(s).GetOr([]);
            var refs := ReadRefs(blob, h.unserialize);
            var u := Unserialize(bytes, Some(h));
            && (refs.Failure? ==> u == Failure(BadSection(refs.error)))
            && (refs.Success? ==> u == Success(Start(HeaderSize, Some(refs.value))))
            && (|blob| < FieldWidth ==> u == Failure(BadSection(SectionShort)))
  {
  }

  /**
   * The hook's functions undo each other on the session: in the vec layout
   * the whole list survives `serialize` then `unserialize`; otherwise every
   * element serializes and survives the trip on its own.
   */
  ghost predicate Inverts<V(!new)>(h: Hook<V>, s: Session<V>) {
    if h.vec != 0 then
      h.serializeAll(s).Some? && h.unserializeAll(h.serializeAll(s).value) == s.items
    else
      forall i :: 0 <= i < |s.items| ==>
        h.serialize(s.items[i]).Some? && h.unserialize(h.serialize(s.items[i]).value) == s.items[i]
  }

  /**
   * The hook's functions undo each other on every list they serialize, in
   * the vec layout, or on every value of the class, otherwise. In the vec
   * layout the serialization may fail: blobs are bounded in length, so no
   * function can serialize every list one-to-one.
   */
  ghost predicate InvertsAll<V(!new)>(h: Hook<V>) {
    if h.vec != 0 then
      forall s: Session<V> :: h.serializeAll(s).Some? ==> h.unserializeAll(h.serializeAll(s).value) == s.items
    else
      forall x :: h.inherits(x) ==> h.serialize(x).Some? && h.unserialize(h.serialize(x).value) == x
  }

  /** Such a hook undoes itself on any session of values of the class that it serializes as a whole, in the vec layout. */
  lemma InvertsOnSession<V(!new)>(h: Hook<V>, s: Session<V>)
    requires InvertsAll(h)
    requires forall j :: 0 <= j < |s.items| ==> h.inherits(s.items[j])
    requires h.vec != 0 ==> h.serializeAll(s).Some?
    ensures Inverts(h, s)
  {
  }

  /** With such a hook the reader restores exactly the list the writer collected. */
  lemma RestoredItems<V(!new)>(h: Hook<V>, s: Session<V>)
    requires HookFits(h) && |s.items| <= MaxLength
    requires Inverts(h, s)
    ensures Restored(h, s) == s.items
  {
    if h.vec == 0 {
      var r := Restored(h, s);
      assert |r| == |s.items|;
      forall i | 0 <= i < |s.items|
        ensures r[i] == s.items[i]
      {
        assert Blobs(h, s.items)[i] == h.serialize(s.items[i]).value;
      }
    }
  }

  /**
   * The placeholders resolve end to end. A call starts from the empty
   * session, as `TAG(hook)` is nil between calls. For the event at index
   * `i`, a value of the class: the host writes the placeholder numbered
   * `n`, one past the values collected before it; unserializing the
   * container restores a list from the section; and, when the hook's
   * functions undo each other on the values the call collects (element by
   * element, or as one list in the vec layout) and the vec integer's low
   * byte keeps its meaning, `nano_outHook` resolves the name `n` in that
   * list to the value itself.
   */
  lemma PlaceholderRoundTrip<V(!new)>(nodes: seq<Node<V>>, h: Hook<V>, hostFlags: nat, i: nat)
    requires NodesFit(nodes) && hostFlags < Pow256(4)
    requires HookFits(h) && |nodes| <= MaxLength
    requires FlagKept(h.vec)
    requires Inverts(h, Collect(nodes, h.inherits, Empty()))
    requires i < |nodes| && nodes[i].Candidate? && h.inherits(nodes[i].value)
    ensures var n := Before(nodes, h.inherits, i) + 1;
            var r := Serialize(nodes, Some(h), hostFlags, Empty());
            && Pieces(nodes, h.inherits, 0)[i] == Placeholder(n)
            && (r.Success? ==>
                  var u := Unserialize(r.value.bytes, Some(h));
                  u.Success? && u.value.refs.Some? && OutHook(Digits(n), u.value.refs.value) == Some(nodes[i].value))
  {
    PlaceholderPiece(nodes, h.inherits, i);
    ContainerResolves(nodes, h, hostFlags, i);
  }

  /** The read half of the round trip: the restored list resolves the name given to the value at index `i`. */
  lemma ContainerResolves<V(!new)>(nodes: seq<Node<V>>, h: Hook<V>, hostFlags: nat, i: nat)
    requires NodesFit(nodes) && hostFlags < Pow256(4)
    requires HookFits(h) && |nodes| <= MaxLength
    requires FlagKept(h.vec)
    requires Inverts(h, Collect(nodes, h.inherits, Empty()))
    requires i < |nodes| && nodes[i].Candidate? && h.inherits(nodes[i].value)
    ensures var n := Before(nodes, h.inherits, i) + 1;
            var r := Serialize(nodes, Some(h), hostFlags, Empty());
            r.Success? ==>
              var u := Unserialize(r.value.bytes, Some(h));
              u.Success? && u.value.refs.Some? && OutHook(Digits(n), u.value.refs.value) == Some(nodes[i].value)
  {
    assert h.vec == 0 ==> ItemsSerialize(h, Collect(nodes, h.inherits, Empty()));
    SerializeThenUnserialize(nodes, h, hostFlags, Empty(), i);
    PlaceholderResolvesInList(nodes, h, i);
  }

  /** The name `nano_inHook` gave the value at index `i` picks it out of the restored list. */
  lemma PlaceholderResolvesInList<V(!new)>(nodes: seq<Node<V>>, h: Hook<V>, i: nat)
    requires HookFits(h) && |nodes| <= MaxLength
    requires Inverts(h, Collect(nodes, h.inherits, Empty()))
    requires i < |nodes| && nodes[i].Candidate? && h.inherits(nodes[i].value)
    ensures var n := Before(nodes, h.inherits, i) + 1;
            OutHook(Digits(n), Restored(h, Collect(nodes, h.inherits, Empty()))) == Some(nodes[i].value)
  {
    var s := Collect(nodes, h.inherits, Empty());
    CollectedAt(nodes, h.inherits, i);
    assert s.items == Collected(nodes, h.inherits);
    RestoredResolves(h, s, Before(nodes, h.inherits, i));
  }

  /** In a list the hook restores, the decimal name of a 1-based position resolves to the element there. */
  lemma RestoredResolves<V(!new)>(h: Hook<V>, s: Session<V>, c: nat)
    requires HookFits(h) && |s.items| <= MaxLength
    requires Inverts(h, s)
    requires c < |s.items|
    ensures OutHook(Digits(c + 1), Restored(h, s)) == Some(s.items[c])
  {
    RestoredItems(h, s);
  }

  /** A vec-layout hook that serializes exactly the one-element list of `x`, and reads it back. */
  function OneListHook(x: int): (h: Hook<int>)
    ensures h.vec != 0
  {
    Hook((v: int) => true, (v: int) => None,
         (s: Session<int>) => if s.items == [x] then Some([1 as byte]) else None,
         (b: seq<byte>) => 0, (b: seq<byte>) => if b == [1] then [x] else [], 1)
  }

  /** The end-to-end round trip has callers in the vec layout: a walk that meets one value meets its hypotheses. */
  lemma VecHypothesesMet(x: int)
    ensures var h := OneListHook(x);
            var nodes := [Candidate(x, [])];
            && NodesFit(nodes) && HookFits(h) && FlagKept(h.vec)
            && Inverts(h, Collect(nodes, h.inherits, Empty()))
  {
    var h := OneListHook(x);
    var nodes: seq<Node<int>> := [Candidate(x, [])];
    var s := Collect(nodes, h.inherits, Empty());
    assert nodes[1..] == [];
    assert Collected(nodes, h.inherits) == NodeCollected(nodes[0], h.inherits) + Collected(nodes[1..], h.inherits);
    assert s.items == [x];
    assert h.serializeAll(s) == Some([1]);
  }
}

=== FILE: ref_hooks.dfy ===
/**
 * The reference hooks of the older serializer (src/core.c): while the host
 * serializes, `nano_inHook` collects each value of the registered class into
 * a session list kept in the hook's `TAG` and hands the host a placeholder,
 * the value's 1-based position in decimal; while it unserializes,
 * `nano_outHook` turns such a placeholder back into the element at that
 * position of the restored list.
 */
module RefHooks {
  import opened Wrappers
  import opened Decimal
  import opened ByteBuffer

  /** `SAKURA_LD_STRLEN`: the buffer the placeholder is printed into, terminator included. */
  const LdStrLen: nat := 21

  /**
   * The list in `TAG(hook)`: the values collected so far, in order, and its
   * names attribute, one name per value.
   */
  datatype Session<V> = Session(items: seq<V>, names: seq<string>)

  /** The session before anything is collected: `TAG(hook)` is nil. */
  function Empty<V>(): (s: Session<V>)
    ensures |s.items| == 0 && WellNamed(s)
  {
    Session([], [])
  }

  /** Each value has a name, and the name is its own 1-based position. */
  predicate WellNamed<V>(s: Session<V>) {
    |s.names| == |s.items| && NamedFromOne(s.names)
  }

  /** The `i`-th name, counting from zero, is the decimal of `i + 1`. */
  predicate NamedFromOne(names: seq<string>)
    decreases |names|
  {
    var n := |names|;
    n == 0 || (names[n - 1] == Digits(n) && NamedFromOne(names[..n - 1]))
  }

  /** In names counted from one, the name at index `i` is `i + 1`. */
  lemma {:induction false} NameAt(names: seq<string>, i: nat)
    requires NamedFromOne(names)
    requires i < |names|
    ensures names[i] == Digits(i + 1)
    decreases |names|
  {
    var n := |names|;
    if i < n - 1 {
      NameAt(names[..n - 1], i);
    }
  }

  /**
   * No list R can allocate is long enough for `%ld` of its length to overflow
   * the placeholder buffer: 2^52 has sixteen digits.
   */
  lemma PlaceholderFits(n: nat)
    requires n <= MaxLength
    ensures |Digits(n)| < LdStrLen
  {
    Pow10Widths();
    DigitsFit(n, 16);
  }

  /**
   * `nano_inHook`. A value not of the class is left to the host: the result
   * is nil and the list is untouched. Any other value is appended to the
   * list, under a name that is also the placeholder returned; earlier
   * elements keep their place and name. In a well-named session the new name
   * is again the value's own position.
   */
  function InHook<V>(x: V, inherits: V -> bool, s: Session<V>): (r: (Option<string>, Session<V>))
    requires |s.items| < MaxLength
    ensures !inherits(x) ==> r == (None, s)
    ensures inherits(x) ==> r.0.Some? && r.1 == Session(s.items + [x], s.names + [r.0.value])
    ensures inherits(x) ==> |r.0.value| < LdStrLen
    ensures WellNamed(s) ==> WellNamed(r.1)
  {
    if !inherits(x) then (None, s)
    else
      var name := Digits(|s.items| + 1);
      PlaceholderFits(|s.items| + 1);
      assert (s.names + [name])[..|s.names|] == s.names;
      (Some(name), Session(s.items + [x], s.names + [name]))
  }

  /** The placeholder `nano_inHook` hands out spells the new value's 1-based position. */
  lemma PlaceholderValue<V>(x: V, inherits: V -> bool, s: Session<V>)
    requires |s.items| < MaxLength
    requires inherits(x)
    ensures var name := InHook(x, inherits, s).0.value;
            AllDigits(name) && Atol(name) == |s.items| + 1
  {
  }

  /**
   * `nano_outHook`: the element of the restored list at the position the
   * placeholder spells, counting from one. An index outside the list is an
   * error of R's `VECTOR_ELT`.
   */
  function OutHook<V>(s: string, refs: seq<V>): (r: Option<V>)
    ensures r.Some? <==> 0 < Atol(s) <= |refs|
    ensures r.Some? ==> r.value == refs[Atol(s) - 1]
  {
    var i := Atol(s) - 1;
    if 0 <= i < |refs| then Some(refs[i]) else None
  }

  /**
   * The placeholder `nano_inHook` hands out for a value resolves, through
   * `nano_outHook`, to that same value in any list that starts with the
   * session the hook left behind.
   */
  lemma PlaceholderResolves<V>(x: V, inherits: V -> bool, s: Session<V>, refs: seq<V>)
    requires |s.items| < MaxLength
    requires inherits(x)
    requires InHook(x, inherits, s).1.items <= refs
    ensures OutHook(InHook(x, inherits, s).0.value, refs) == Some(x)
  {
    PlaceholderValue(x, inherits, s);
    assert InHook(x, inherits, s).1.items[|s.items|] == x;
  }

  /**
   * In a well-named session every name resolves to its own element, in any
   * list that starts with the session's values, so later additions never
   * disturb earlier placeholders.
   */
  lemma NamesResolve<V>(s: Session<V>, refs: seq<V>, i: nat)
    requires WellNamed(s)
    requires s.items <= refs
    requires i < |s.items|
    ensures OutHook(s.names[i], refs) == Some(s.items[i])
  {
    NameAt(s.names, i);
    assert s.items[i] == refs[i];
  }

  /** Distinct positions get distinct placeholders. */
  lemma NamesDistinct<V>(s: Session<V>, i: nat, j: nat)
    requires WellNamed(s)
    requires i < j < |s.names|
    ensures s.names[i] != s.names[j]
  {
    NameAt(s.names, i);
    NameAt(s.names, j);
    assert Atol(Digits(i + 1)) != Atol(Digits(j + 1));
  }
}

=== FILE: ref_layout.dfy ===
/**
 * The byte layout of the older serializer's output (src/core.c), as
 * reference definitions: the 12-byte header, the host stream with its
 * placeholder records, and the reference section of length-prefixed blobs.
 */
module RefLayout {
  import opened Bytes
  import opened Decimal
  import opened ByteBuffer
  import opened Host
  import opened RefHooks

  /** The fixed header ahead of the host stream. */
  const HeaderSize: nat := 12
  /** The width of the offset field and of every count and length: `uint64_t`, `R_xlen_t`. */
  const FieldWidth: nat := 8
  /** `R_xlen_t` is signed: a length field at or above 2^63 reads as negative. */
  const XlenLimit: nat := 0x8000_0000_0000_0000

  lemma FieldFits(n: nat)
    requires n <= CapLimit
    ensures n < Pow256(FieldWidth)
    ensures n < XlenLimit
  {
    Pow256Widths();
  }

  /**
   * The flag byte as src/core.c writes it: the C conversion of the vec
   * integer to `uint8_t`, which keeps only its low eight bits.
   */
  function FlagByteAsWritten(vec: int): (f: byte)
    ensures f as int == vec % 256
  {
    (vec % 256) as byte
  }

  /**
   * The writer picks the vec layout when the integer is nonzero, the reader
   * when the byte is nonzero; a nonzero integer whose low eight bits are
   * zero, such as 256 or `NA_integer_` (the most negative `int`), gives a
   * byte that sends the reader down the other layout.
   */
  lemma FlagByteLosesVec()
    ensures FlagByteAsWritten(256) == 0
    ensures FlagByteAsWritten(-0x8000_0000) == 0
  {
  }

  /** The flag byte the reader needs: nonzero exactly when the vec integer is, whatever its low bits. */
  function FlagByte(vec: int): (f: byte)
    ensures f != 0 <==> vec != 0
  {
    if vec != 0 then 1 else 0
  }

  /**
   * The vec integers whose truncated byte still tells the reader which
   * layout the writer chose: zero, or any integer whose low eight bits are
   * not all zero.
   */
  predicate FlagKept(vec: int) {
    FlagByteAsWritten(vec) != 0 <==> vec != 0
  }

  /** The header as first written: marker, the vec integer cut to a byte, two zero bytes, and an offset of zero. */
  function Header(vec: int): (hdr: seq<byte>)
    ensures |hdr| == HeaderSize
  {
    [7, FlagByteAsWritten(vec), 0, 0] + LE(0, FieldWidth)
  }

  /**
   * A fresh header: byte 0 is the marker 0x7, byte 1 the low byte of the vec
   * integer, bytes 2 and 3 are zero, and bytes 4 to 11 hold an offset of zero.
   */
  lemma HeaderLayout(vec: int)
    ensures var hdr := Header(vec);
            && hdr[0] == 7 && hdr[1] as int == vec % 256 && hdr[2] == 0 && hdr[3] == 0
            && FromLE(hdr[4..HeaderSize]) == 0
  {
    assert Header(vec)[4..HeaderSize] == LE(0, FieldWidth);
  }

  /** The cursor where the host stream ended, written into bytes 4 to 11. */
  function PatchOffset(content: seq<byte>): (patched: seq<byte>)
    requires HeaderSize <= |content| <= CapLimit
    ensures |patched| == |content|
    ensures patched[..4] == content[..4] && patched[HeaderSize..] == content[HeaderSize..]
    ensures FromLE(patched[4..HeaderSize]) == |content|
  {
    var f := LengthField(|content|);
    var patched := content[..4] + f + content[HeaderSize..];
    assert patched[4..HeaderSize] == f;
    patched
  }

  /**
   * A container: the marker 0x7, the vec byte, two zero bytes, the offset
   * field, and the host stream from byte 12 on.
   */
  predicate Container(bytes: seq<byte>, vec: int, stream: seq<byte>, offset: nat) {
    && HeaderSize + |stream| <= |bytes|
    && bytes[0] == 7 && bytes[1] == FlagByteAsWritten(vec) && bytes[2] == 0 && bytes[3] == 0
    && FromLE(bytes[4..HeaderSize]) == offset
    && bytes[HeaderSize..HeaderSize + |stream|] == stream
  }

  /** Header and stream with nothing collected: the offset stays zero. */
  lemma Unpatched(vec: int, stream: seq<byte>)
    ensures Container(Header(vec) + stream, vec, stream, 0)
  {
    var bytes := Header(vec) + stream;
    HeaderLayout(vec);
    assert bytes[4..HeaderSize] == Header(vec)[4..HeaderSize];
    assert bytes[HeaderSize..HeaderSize + |stream|] == stream;
  }

  /**
   * Header and stream, patched, then a section: the offset field holds where
   * the stream ends, which is where the section starts.
   */
  lemma Patched(vec: int, stream: seq<byte>, section: seq<byte>)
    requires HeaderSize + |stream| <= CapLimit
    ensures var content := Header(vec) + stream;
            var bytes := PatchOffset(content) + section;
            && Container(bytes, vec, stream, |content|)
            && bytes[|content|..] == section
  {
    var content := Header(vec) + stream;
    var patched := PatchOffset(content);
    var bytes := patched + section;
    HeaderLayout(vec);
    assert bytes[..4] == patched[..4] == content[..4] == Header(vec)[..4];
    assert bytes[4..HeaderSize] == patched[4..HeaderSize];
    assert bytes[HeaderSize..HeaderSize + |stream|] == patched[HeaderSize..] == content[HeaderSize..] == stream;
    assert bytes[|content|..] == section;
  }

  /** The host's record of the placeholder for the `n`-th collected value. */
  function PlaceholderRecord(hostFlags: nat, n: nat): (rec: seq<byte>)
    requires hostFlags < Pow256(4)
    requires n <= MaxLength
    ensures RecordPrefixLen < |rec| < RecordPrefixLen + LdStrLen
  {
    PlaceholderFits(n);
    DigitsAreBytes(Digits(n));
    StringRecord(hostFlags, Digits(n))
  }

  /** The values of the class among a run of events, in order. */
  function Collected<V>(nodes: seq<Node<V>>, inherits: V -> bool): (xs: seq<V>)
    ensures |xs| <= |nodes|
  {
    if nodes == [] then [] else NodeCollected(nodes[0], inherits) + Collected(nodes[1..], inherits)
  }

  /** The value one event contributes to the session, if any. */
  function NodeCollected<V>(n: Node<V>, inherits: V -> bool): (xs: seq<V>)
    ensures |xs| <= 1
  {
    match n
    case Candidate(x, _) => if inherits(x) then [x] else []
    case Native(_) => []
  }

  /**
   * What the host writes for one event, before it is spelled out in bytes:
   * bytes of its own, or the placeholder record numbered `n`.
   */
  datatype Piece = Verbatim(bytes: seq<byte>) | Placeholder(n: nat)

  /**
   * The piece for one event when `k` values were collected before it: the
   * host's own bytes for natives and for values not of the class, and the
   * next placeholder for a value of the class.
   */
  function NodePiece<V>(n: Node<V>, inherits: V -> bool, k: nat): (p: Piece)
    ensures p.Placeholder? <==> NodeCollected(n, inherits) != []
    ensures p.Placeholder? ==> p.n == k + 1
  {
    match n
    case Native(bytes) => Verbatim(bytes)
    case Candidate(x, fallback) => if inherits(x) then Placeholder(k + 1) else Verbatim(fallback)
  }

  /** The pieces of a run of events, one per event, placeholders numbered on from `k`. */
  function Pieces<V>(nodes: seq<Node<V>>, inherits: V -> bool, k: nat): (ps: seq<Piece>)
    ensures |ps| == |nodes|
    ensures forall i :: 0 <= i < |ps| && ps[i].Placeholder? ==> k < ps[i].n <= k + |nodes|
    decreases |nodes|
  {
    if nodes == [] then []
    else [NodePiece(nodes[0], inherits, k)] + Pieces(nodes[1..], inherits, k + |NodeCollected(nodes[0], inherits)|)
  }

  /**
   * Pieces the host can write: placeholders numbered within what a list may
   * hold, and runs of its own no longer than a C `int`.
   */
  predicate PiecesFit(ps: seq<Piece>) {
    forall i :: 0 <= i < |ps| ==> PieceFits(ps[i])
  }

  predicate PieceFits(p: Piece) {
    match p
    case Verbatim(bytes) => |bytes| <= IntMax
    case Placeholder(n) => n <= MaxLength
  }

  /** The bytes of one piece. */
  function PieceBytes(p: Piece, hostFlags: nat): (bytes: seq<byte>)
    requires hostFlags < Pow256(4)
    requires PieceFits(p)
    ensures |bytes| <= IntMax
  {
    match p
    case Verbatim(bytes) => bytes
    case Placeholder(n) => PlaceholderRecord(hostFlags, n)
  }

  /** The bytes of each piece of a run, in order. */
  function PieceChunks(ps: seq<Piece>, hostFlags: nat): (chunks: seq<seq<byte>>)
    requires hostFlags < Pow256(4)
    requires PiecesFit(ps)
    ensures ChunksFit(chunks)
  {
    seq(|ps|, i requires 0 <= i < |ps| => PieceBytes(ps[i], hostFlags))
  }

  /** The bytes of a run of pieces, one after another. */
  function Render(ps: seq<Piece>, hostFlags: nat): seq<byte>
    requires hostFlags < Pow256(4)
    requires PiecesFit(ps)
  {
    Concat(PieceChunks(ps, hostFlags))
  }

  /** What the host writes for a run of events when `k` values were collected before it. */
  function HostStream<V>(nodes: seq<Node<V>>, inherits: V -> bool, hostFlags: nat, k: nat): seq<byte>
    requires NodesFit(nodes)
    requires hostFlags < Pow256(4)
    requires k + |nodes| <= MaxLength
  {
    PiecesOfFittingNodes(nodes, inherits, k);
    Render(Pieces(nodes, inherits, k), hostFlags)
  }

  /** The events the host can write give pieces it can write. */
  lemma {:induction false} PiecesOfFittingNodes<V>(nodes: seq<Node<V>>, inherits: V -> bool, k: nat)
    requires NodesFit(nodes)
    requires k + |nodes| <= MaxLength
    ensures PiecesFit(Pieces(nodes, inherits, k))
    decreases |nodes|
  {
    if nodes != [] {
      var c0 := |NodeCollected(nodes[0], inherits)|;
      var ps := Pieces(nodes, inherits, k);
      var rest := Pieces(nodes[1..], inherits, k + c0);
      assert NodesFit(nodes[1..]) by {
        assert forall i :: 0 <= i < |nodes| - 1 ==> nodes[1..][i] == nodes[i + 1];
      }
      PiecesOfFittingNodes(nodes[1..], inherits, k + c0);
      assert NodeFits(nodes[0]);
      assert ps == [NodePiece(nodes[0], inherits, k)] + rest;
      assert forall i :: 0 < i < |ps| ==> ps[i] == rest[i - 1];
    }
  }

  /** The bytes of a run of chunks hold each chunk. */
  lemma {:induction false} ConcatHoldsChunk(chunks: seq<seq<byte>>, i: nat)
    requires i < |chunks|
    ensures |chunks[i]| <= |Concat(chunks)|
    decreases i
  {
    if i > 0 {
      assert chunks[1..][i - 1] == chunks[i];
      ConcatHoldsChunk(chunks[1..], i - 1);
    }
  }

  /** Runs of pieces that hold a placeholder render to more than a record prefix. */
  lemma RenderHoldsRecord(ps: seq<Piece>, hostFlags: nat, i: nat)
    requires hostFlags < Pow256(4)
    requires PiecesFit(ps)
    requires i < |ps| && ps[i].Placeholder?
    ensures RecordPrefixLen < |Render(ps, hostFlags)|
  {
    ConcatHoldsChunk(PieceChunks(ps, hostFlags), i);
  }

  /** The pieces of a run in which something was collected hold a placeholder. */
  lemma {:induction false} PiecesHoldPlaceholder<V>(nodes: seq<Node<V>>, inherits: V -> bool, k: nat)
    requires Collected(nodes, inherits) != []
    ensures exists i :: 0 <= i < |nodes| && Pieces(nodes, inherits, k)[i].Placeholder?
    decreases |nodes|
  {
    var ps := Pieces(nodes, inherits, k);
    var c0 := |NodeCollected(nodes[0], inherits)|;
    assert ps[0] == NodePiece(nodes[0], inherits, k);
    if c0 == 0 {
      PiecesHoldPlaceholder(nodes[1..], inherits, k);
      var i :| 0 <= i < |nodes| - 1 && Pieces(nodes[1..], inherits, k)[i].Placeholder?;
      assert ps[i + 1] == Pieces(nodes[1..], inherits, k)[i];
    }
  }

  /** A stream in which something was collected holds at least that value's placeholder. */
  lemma StreamNonEmpty<V>(nodes: seq<Node<V>>, inherits: V -> bool, hostFlags: nat, k: nat)
    requires NodesFit(nodes)
    requires hostFlags < Pow256(4)
    requires k + |nodes| <= MaxLength
    requires Collected(nodes, inherits) != []
    ensures RecordPrefixLen < |HostStream(nodes, inherits, hostFlags, k)|
  {
    PiecesOfFittingNodes(nodes, inherits, k);
    PiecesHoldPlaceholder(nodes, inherits, k);
    var i :| 0 <= i < |nodes| && Pieces(nodes, inherits, k)[i].Placeholder?;
    RenderHoldsRecord(Pieces(nodes, inherits, k), hostFlags, i);
  }

  lemma CollectedCons<V>(nodes: seq<Node<V>>, inherits: V -> bool)
    requires nodes != []
    ensures Collected(nodes, inherits) == NodeCollected(nodes[0], inherits) + Collected(nodes[1..], inherits)
  {
  }

  /** Only values of the class are collected. */
  lemma {:induction false} CollectedOfClass<V>(nodes: seq<Node<V>>, inherits: V -> bool)
    ensures forall j :: 0 <= j < |Collected(nodes, inherits)| ==> inherits(Collected(nodes, inherits)[j])
    decreases |nodes|
  {
    if nodes != [] {
      CollectedOfClass(nodes[1..], inherits);
      CollectedCons(nodes, inherits);
    }
  }

  /** The values collected before the event at index `i`, and how many. */
  function Before<V>(nodes: seq<Node<V>>, inherits: V -> bool, i: nat): nat
    requires i <= |nodes|
  {
    |Collected(nodes[..i], inherits)|
  }

  /** One event further on, the count grows by what the first event contributed. */
  lemma BeforeCons<V>(nodes: seq<Node<V>>, inherits: V -> bool, i: nat)
    requires 0 < i <= |nodes|
    ensures Before(nodes, inherits, i) == |NodeCollected(nodes[0], inherits)| + Before(nodes[1..], inherits, i - 1)
  {
    assert nodes[..i][0] == nodes[0] && nodes[..i][1..] == nodes[1..][..i - 1];
    CollectedCons(nodes[..i], inherits);
  }

  /**
   * The event at index `i` is written as the piece for an event met after
   * the values collected before it: a value of the class gets the placeholder
   * numbered one past them.
   */
  lemma {:induction false} PieceNumbered<V>(nodes: seq<Node<V>>, inherits: V -> bool, k: nat, i: nat)
    requires i < |nodes|
    ensures Pieces(nodes, inherits, k)[i] == NodePiece(nodes[i], inherits, k + Before(nodes, inherits, i))
    decreases i
  {
    var c0 := |NodeCollected(nodes[0], inherits)|;
    if i == 0 {
      assert nodes[..0] == [];
    } else {
      var rest := nodes[1..];
      PieceNumbered(rest, inherits, k + c0, i - 1);
      BeforeCons(nodes, inherits, i);
      assert rest[i - 1] == nodes[i];
      assert Pieces(nodes, inherits, k)[i] == Pieces(rest, inherits, k + c0)[i - 1];
    }
  }

  /** A value of the class at index `i` is written as the placeholder one past the values collected before it. */
  lemma PlaceholderPiece<V>(nodes: seq<Node<V>>, inherits: V -> bool, i: nat)
    requires i < |nodes| && nodes[i].Candidate? && inherits(nodes[i].value)
    ensures Pieces(nodes, inherits, 0)[i] == Placeholder(Before(nodes, inherits, i) + 1)
  {
    PieceNumbered(nodes, inherits, 0, i);
  }

  /** The value of the class at index `i` is the next one collected after those before it. */
  lemma {:induction false} CollectedAt<V>(nodes: seq<Node<V>>, inherits: V -> bool, i: nat)
    requires i < |nodes| && nodes[i].Candidate? && inherits(nodes[i].value)
    ensures Before(nodes, inherits, i) < |Collected(nodes, inherits)|
    ensures Collected(nodes, inherits)[Before(nodes, inherits, i)] == nodes[i].value
    decreases i
  {
    var c0 := |NodeCollected(nodes[0], inherits)|;
    CollectedCons(nodes, inherits);
    if i == 0 {
      assert nodes[..0] == [];
    } else {
      var rest := nodes[1..];
      assert rest[i - 1] == nodes[i];
      CollectedAt(rest, inherits, i - 1);
      BeforeCons(nodes, inherits, i);
    }
  }

  /** Every blob is a raw vector. */
  predicate BlobsFit(blobs: seq<seq<byte>>) {
    forall i :: 0 <= i < |blobs| ==> |blobs[i]| <= MaxLength
  }

  /** A length field. */
  function LengthField(n: nat): (f: seq<byte>)
    requires n <= CapLimit
    ensures |f| == FieldWidth && FromLE(f) == n
  {
    FieldFits(n);
    LE(n, FieldWidth)
  }

  /**
   * The field is the only eight bytes that denote its number, so a reader
   * that finds the number finds exactly the bytes the writer put there.
   */
  lemma LengthFieldUnique(f: seq<byte>, n: nat)
    requires n <= CapLimit
    requires |f| == FieldWidth && FromLE(f) == n
    ensures f == LengthField(n)
  {
    FromLEInjective(f, LengthField(n));
  }

  /** Blobs one after another, each behind its length. */
  function EntriesBytes(blobs: seq<seq<byte>>): seq<byte>
    requires BlobsFit(blobs)
  {
    if blobs == [] then [] else LengthField(|blobs[0]|) + blobs[0] + EntriesBytes(blobs[1..])
  }

  /** The entries of a non-empty run: the first blob behind its length, then the rest. */
  lemma EntriesCons(blobs: seq<seq<byte>>)
    requires BlobsFit(blobs) && blobs != []
    ensures BlobsFit(blobs[1..])
    ensures forall pre: seq<byte> {:trigger pre + EntriesBytes(blobs)} ::
              pre + EntriesBytes(blobs) == pre + (LengthField(|blobs[0]|) + blobs[0]) + EntriesBytes(blobs[1..])
  {
    assert forall i :: 0 <= i < |blobs| - 1 ==> blobs[1..][i] == blobs[i + 1];
  }

  /**
   * Entries in place from `cur` on: each blob behind its length field, one
   * after another.
   */
  predicate Laid(data: seq<byte>, cur: nat, blobs: seq<seq<byte>>)
    decreases |blobs|
  {
    blobs == [] ||
      var p := blobs[0];
      && |p| <= MaxLength
      && cur + FieldWidth + |p| <= |data|
      && data[cur..cur + FieldWidth] == LengthField(|p|)
      && data[cur + FieldWidth..cur + FieldWidth + |p|] == p
      && Laid(data, cur + FieldWidth + |p|, blobs[1..])
  }

  /** Where entries in place from `cur` end. */
  function EntriesEnd(cur: nat, blobs: seq<seq<byte>>): nat
    decreases |blobs|
  {
    if blobs == [] then cur else EntriesEnd(cur + FieldWidth + |blobs[0]|, blobs[1..])
  }

  /** Entries written one after another are in place, and end where their bytes end. */
  lemma {:induction false} EntriesLaid(pre: seq<byte>, blobs: seq<seq<byte>>, post: seq<byte>)
    requires BlobsFit(blobs)
    ensures Laid(pre + EntriesBytes(blobs) + post, |pre|, blobs)
    ensures EntriesEnd(|pre|, blobs) == |pre| + |EntriesBytes(blobs)|
    decreases |blobs|
  {
    if blobs != [] {
      var p, rest := blobs[0], blobs[1..];
      var len := LengthField(|p|);
      var tail := EntriesBytes(rest);
      assert BlobsFit(rest);
      assert EntriesBytes(blobs) == len + p + tail;
      FirstEntry(pre, len, p, tail, post);
      EntriesLaid(pre + len + p, rest, post);
    }
  }

  /** Where a first entry sits among the bytes around it. */
  lemma FirstEntry(pre: seq<byte>, len: seq<byte>, p: seq<byte>, tail: seq<byte>, post: seq<byte>)
    ensures var data := pre + (len + p + tail) + post;
            && data == (pre + len + p) + tail + post
            && data[|pre|..|pre| + |len|] == len
            && data[|pre| + |len|..|pre| + |len| + |p|] == p
  {
    var data := pre + (len + p + tail) + post;
    assert data == pre + len + (p + tail + post);
    assert data == (pre + len) + p + (tail + post);
  }

  /** A section: the element count, then the entries. */
  function Section(count: nat, blobs: seq<seq<byte>>): seq<byte>
    requires count <= MaxLength && BlobsFit(blobs)
  {
    LengthField(count) + EntriesBytes(blobs)
  }

  /** Each blob, decoded. */
  function Decoded<V>(blobs: seq<seq<byte>>, dec: seq<byte> -> V): (xs: seq<V>)
    ensures |xs| == |blobs|
    ensures forall i :: 0 <= i < |blobs| ==> xs[i] == dec(blobs[i])
  {
    seq(|blobs|, i requires 0 <= i < |blobs| => dec(blobs[i]))
  }

}

=== FILE: section_reader.dfy ===
/**
 * The reader of the non-vec reference section in `sakura_unserialize`
 * (src/core.c): the element count, then for each element its length and that
 * many bytes, handed to the unserialization function.
 */
module SectionReader {
  import opened Wrappers
  import opened Bytes
  import opened ByteBuffer
  import opened RefLayout

  /** Why a reference section cannot be read. */
  datatype SectionError = SectionShort | NegativeLength

  /** One count or length: eight bytes, refused when negative as an `R_xlen_t`. */
  function ReadLength(rd: Reader): (r: Result<(nat, Reader), SectionError>)
    ensures r.Success? ==> r.value.0 < XlenLimit
    ensures r.Success? ==> r.value.1 == Reader(rd.data, rd.cur + FieldWidth)
    ensures r.Success? ==> rd.cur + FieldWidth <= |rd.data|
                           && r.value.0 == FromLE(rd.data[rd.cur..rd.cur + FieldWidth])
    ensures |rd.data| < rd.cur + FieldWidth ==> r == Failure(SectionShort)
  {
    match Read(rd, FieldWidth)
    case Failure(_) => Failure(SectionShort)
    case Success((bytes, rd')) =>
      var n := FromLE(bytes);
      if n >= XlenLimit then Failure(NegativeLength) else Success((n, rd'))
  }

  /** One entry: its length, then that many bytes. */
  function ReadEntry(rd: Reader): (r: Result<(seq<byte>, Reader), SectionError>)
    ensures r.Success? ==> r.value.1.data == rd.data
    ensures r.Success? ==> r.value.1.cur == rd.cur + FieldWidth + |r.value.0| <= |rd.data|
    ensures r.Success? ==> r.value.0 == rd.data[rd.cur + FieldWidth..r.value.1.cur]
    ensures |rd.data| < rd.cur + FieldWidth ==> r == Failure(SectionShort)
  {
    var (len, rd1) :- ReadLength(rd);
    match Read(rd1, len)
    case Failure(_) => Failure(SectionShort)
    case Success(res) => Success(res)
  }

  /** `n` entries, in order, and the cursor after the last. */
  function ReadEntries(rd: Reader, n: nat): (r: Result<(seq<seq<byte>>, Reader), SectionError>)
    ensures r.Success? ==> |r.value.0| == n && r.value.1.data == rd.data
    ensures r.Success? ==> rd.cur + FieldWidth * n <= r.value.1.cur
    ensures r.Success? && 0 < n ==> r.value.1.cur <= |rd.data|
    ensures 0 < n && |rd.data| < rd.cur + FieldWidth ==> r == Failure(SectionShort)
    decreases n
  {
    if n == 0 then Success(([], rd))
    else
      var e :- ReadEntry(rd);
      var t :- ReadEntries(e.1, n - 1);
      assert FieldWidth * n == FieldWidth + FieldWidth * (n - 1);
      Success(([e.0] + t.0, t.1))
  }

  /** Reading `n + 1` entries is reading one, then `n` more from where it ended. */
  lemma ReadEntriesCons(rd: Reader, n: nat, blob: seq<byte>, rd1: Reader, rest: seq<seq<byte>>, rd2: Reader)
    requires ReadEntry(rd) == Success((blob, rd1))
    requires ReadEntries(rd1, n) == Success((rest, rd2))
    ensures ReadEntries(rd, n + 1) == Success(([blob] + rest, rd2))
  {
  }

  /** An entry in place at the cursor is read back, and the cursor ends just past it. */
  lemma EntryRead(data: seq<byte>, cur: nat, p: seq<byte>)
    requires |p| <= MaxLength
    requires cur + FieldWidth + |p| <= |data|
    requires data[cur..cur + FieldWidth] == LengthField(|p|)
    requires data[cur + FieldWidth..cur + FieldWidth + |p|] == p
    ensures ReadEntry(Reader(data, cur)) == Success((p, Reader(data, cur + FieldWidth + |p|)))
  {
    FieldFits(|p|);
  }

  /** Entries in place at the cursor are read back, and the cursor ends where they end. */
  lemma {:induction false} LaidRead(data: seq<byte>, cur: nat, blobs: seq<seq<byte>>)
    requires Laid(data, cur, blobs)
    ensures ReadEntries(Reader(data, cur), |blobs|) == Success((blobs, Reader(data, EntriesEnd(cur, blobs))))
    decreases |blobs|
  {
    if blobs != [] {
      var p, rest := blobs[0], blobs[1..];
      var next := cur + FieldWidth + |p|;
      EntryRead(data, cur, p);
      LaidRead(data, next, rest);
      ReadEntriesCons(Reader(data, cur), |rest|, p, Reader(data, next), rest, Reader(data, EntriesEnd(next, rest)));
      assert blobs == [p] + rest;
    }
  }

  /**
   * The reader of the non-vec layout, from the start of the section: the
   * count, then that many entries, each handed to the unserialization
   * function.
   */
  function ReadRefs<V>(section: seq<byte>, dec: seq<byte> -> V): (r: Result<seq<V>, SectionError>)
    ensures |section| < FieldWidth ==> r == Failure(SectionShort)
    ensures FieldWidth <= |section| && XlenLimit <= FromLE(section[..FieldWidth]) ==> r == Failure(NegativeLength)
    ensures r.Success? ==> FieldWidth <= |section| && |r.value| == FromLE(section[..FieldWidth])
    ensures r.Success? ==> FieldWidth * (|r.value| + 1) <= |section|
  {
    var (n, rd) :- ReadLength(Reader(section, 0));
    var (blobs, _) :- ReadEntries(rd, n);
    Success(Decoded(blobs, dec))
  }
}

=== FILE: size_codec.dfy ===
/**
 * The fixed-width decimal length field of a foreign-value record:
 * `format_size_string` spells a 64-bit size as exactly twenty zero-padded
 * ASCII digits and `parseUint64` reads such a field back.
 */
module SizeCodec {
  import opened Wrappers
  import opened Decimal

  /** The width of the length field, fixed so the reader needs no length-of-length. */
  const SizeWidth: nat := 20
  /** The largest `uint64_t`. */
  const U64Max: nat := 18446744073709551615

  /**
   * How `parseUint64` rejects a field: a length other than twenty, no leading
   * digit (`std::invalid_argument` from `std::stoull`), or a value beyond 64
   * bits (`std::out_of_range`).
   */
  datatype ParseError = InvalidLength | NoDigits | OutOfRange

  /** Twenty digits hold every 64-bit value. */
  lemma U64Fits()
    ensures U64Max < Pow10(SizeWidth)
  {
    Pow10Widths();
  }

  /**
   * `format_size_string`: twenty ASCII digits, the spelling of `v` with zeros
   * in front, denoting `v`.
   */
  function FormatSize(v: nat): (s: string)
    requires v <= U64Max
    ensures |s| == SizeWidth && AllDigits(s)
    ensures Value(s) == v
  {
    U64Fits();
    DigitsFit(v, SizeWidth);
    ZeroPadded(SizeWidth - |Digits(v)|, Digits(v));
    Zeros(SizeWidth - |Digits(v)|) + Digits(v)
  }

  /**
   * The field is the decimal spelling of the size, right-aligned, with
   * zeros in front.
   */
  lemma FormatSizeLayout(v: nat)
    requires v <= U64Max
    ensures var s, d := FormatSize(v), Digits(v);
            && |d| <= SizeWidth
            && s[SizeWidth - |d|..] == d
            && forall i :: 0 <= i < SizeWidth - |d| ==> s[i] == '0'
  {
    U64Fits();
    DigitsFit(v, SizeWidth);
    var d := Digits(v);
    ZeroPadded(SizeWidth - |d|, d);
    assert FormatSize(v) == Zeros(SizeWidth - |d|) + d;
  }

  /**
   * `std::stoull` in base 10: leading blanks and one sign are accepted, the
   * digits after them must be present and denote at most 2^64 - 1, and a
   * minus sign negates modulo 2^64.
   */
  function Stoull(s: string): (r: Result<nat, ParseError>)
    ensures r.Success? <==> ReadNumeral(s).digits != [] && Value(ReadNumeral(s).digits) <= U64Max
    ensures ReadNumeral(s).digits == [] ==> r == Failure(NoDigits)
    ensures ReadNumeral(s).digits != [] && U64Max < Value(ReadNumeral(s).digits) ==> r == Failure(OutOfRange)
    ensures r != Failure(InvalidLength)
    ensures r.Success? ==> r.value <= U64Max
    ensures r.Success? && !ReadNumeral(s).negative ==> r.value == Value(ReadNumeral(s).digits)
    ensures r.Success? && ReadNumeral(s).negative ==> (r.value + Value(ReadNumeral(s).digits)) % (U64Max + 1) == 0
    ensures s != [] && AllDigits(s) && Value(s) <= U64Max ==> r == Success(Value(s))
  {
    var n := ReadNumeral(s);
    if n.digits == [] then Failure(NoDigits)
    else
      var v := Value(n.digits);
      if v > U64Max then Failure(OutOfRange)
      else if n.negative && v != 0 then
        assert (U64Max + 1 - v + v) % (U64Max + 1) == 0;
        Success(U64Max + 1 - v)
      else
        assert AllDigits(s) ==> n.digits == s;
        Success(v)
  }

  /**
   * `parseUint64`: a field of any length but twenty is refused; otherwise it
   * is read as `std::stoull` reads it.
   */
  function ParseUint64(s: string): (r: Result<nat, ParseError>)
    ensures |s| != SizeWidth <==> r == Failure(InvalidLength)
    ensures |s| == SizeWidth ==> r == Stoull(s)
    ensures r.Success? ==> r.value <= U64Max
    ensures |s| == SizeWidth && AllDigits(s) && Value(s) <= U64Max ==> r == Success(Value(s))
  {
    if |s| != SizeWidth then Failure(InvalidLength) else Stoull(s)
  }

  /** A digit run beyond 64 bits is refused rather than wrapped, whatever its sign. */
  lemma ParseRefusesWide(s: string)
    requires |s| == SizeWidth
    requires ReadNumeral(s).digits != [] && U64Max < Value(ReadNumeral(s).digits)
    ensures ParseUint64(s) == Failure(OutOfRange)
  {
  }

  /** Every 64-bit size survives the trip through its length field. */
  lemma FormatThenParse(v: nat)
    requires v <= U64Max
    ensures ParseUint64(FormatSize(v)) == Success(v)
  {
  }

  /**
   * A twenty-digit field that parses is the field its value formats to, so
   * the field carries nothing beyond the size.
   */
  lemma ParseThenFormat(s: string)
    requires AllDigits(s)
    requires ParseUint64(s).Success?
    ensures FormatSize(ParseUint64(s).value) == s
  {
    var v := ParseUint64(s).value;
    assert v == Value(s);
    ValueInjective(FormatSize(v), s);
  }

  /** The field is a function of the size: distinct sizes give distinct fields. */
  lemma FormatInjective(v: nat, w: nat)
    requires v <= U64Max && w <= U64Max
    requires FormatSize(v) == FormatSize(w)
    ensures v == w
  {
  }
}

=== FILE: wrappers.dfy ===
/** The two result shapes the model shares: a value a hook may decline to give, and a step that may raise. */
module Wrappers {

  /** `None` is what a hook returns as `R_NilValue` when it declines. */
  datatype Option<+T> = None | Some(value: T) {

    /** The value, or `default` in its absence (the empty payload where the C code reads a nil as length 0). */
    function GetOr(default: T): T {
      if Some? then value else default
    }
  }

  /** A step's value, or the error the C code raises with `Rf_error` or a C++ exception; `:-` hands the error on. */
  datatype Result<+R, +E> = Success(value: R) | Failure(error: E) {

    predicate IsFailure() {
      Failure?
    }

    function PropagateFailure<U>(): Result<U, E>
      requires Failure?
    {
      Failure(error)
    }

    function Extract(): R
      requires Success?
    {
      value
    }
  }
}
